=== FILE: README.md ===
# BitCraft tracker core, modelled in Dafny

The tracker listens to row events of a BitCraft game database: buildings,
claims, empires, player names, resources, entity locations and crafts in
progress. It keeps one set of module-level maps up to date from these
events. From them it derives two tracker outputs:

- `waystoneLocations`: where the waystones of named claims stand.
- `resourceLocations`: where each resource entity (for instance Traveler's
  Fruit) stands.

It also decides when a craft that has just started is a "big craft" in the
Dragons Head or Dragons Tail settlement. Big crafts, fruit reports and
status messages are posted to Discord webhooks.

This project models that core as pure functions over one immutable record
of maps (`Tracker.State`):

- **Row-event handlers.** One module per subscription file. Each handler is
  a keyed set, overwrite or delete on one map.
- **`timeout` and its flush.** `Timeout.Arm` is the guard and arming in
  `timeout(id)`. `Timeout.Flush` is the body of the delayed callback, run
  synchronously. `Timeout.Fire` fires the earliest armed callback. All
  callbacks use the same 1000 ms delay, so they fire in arming order.
  `Tracker.Wf` is the invariant that every pending entity has exactly one
  armed callback.
- **Location packing.** `Packing.Pack` and `Packing.Unpack` are written with
  JavaScript's int32 operator semantics spelled out: `ToInt32`, `ToUint32`,
  `<< 15`, `>> 15` as floor division, and `|`/`&` computed bit by bit.
- **`format`.** `Template.Format` is the `{word}` substitution as one
  left-to-right scan. `Template.Expand` is an independent reference
  semantics over template pieces. Text is *inert* when every `{` in it is
  followed by a non-word character; no placeholder can start in inert text.
- **Description-table joins.** `Recipes.LoadBuildingDesc` and
  `Recipes.LoadRecipeDesc` join over already-parsed lists.
- **The big-craft decision.** `ProgressiveActionStateSub.ProgressiveActionStateInsert`
  returns an optional `CraftInfo`.
- **Webhook routing and embed bodies.** Covered by the `Webhook` module.
- **SDK lifecycle rules.** The lifecycle of a subscription handle, the rule
  that a connection uses either `subscribe` or `subscribeToAllTables`, and
  the single registration of `onDisconnect`. These come from the SDK's
  declaration comments and are modelled as abstract state machines.
- **Whole runs.** `Session` dispatches every event (and the firing of a
  timer) to its handler and proves facts about whole runs.

JavaScript truthiness is modelled exactly where the code relies on it.

- A packed location of 0, a resource type of 0 and an empty name are falsy.
- An entity exactly at the origin is never recorded, because its packed
  location is 0 (`Session.OriginIsNeverRecorded`).
- Entity ids are unsigned 64-bit integers used as map keys through
  `toString()`. That rendering is injective (`Decimal.ShowInjective`), so
  ids are modelled as `nat`. An id-valued entry is therefore truthy exactly
  when it is present.

`src/index.ts` registers no update handler for `location_state`, so in
`Session.Apply` an update of a location row changes nothing. The subscription
file's `LocationStateUpdate` is still modelled on its own, and
`Session.ApplyWithLocationUpdates` is the dispatch with it registered (see
"## Findings").

## Model

| member | source | states |
|---|---|---|
| Packing.ToUint32 | src/global.ts:69-71 | the operand conversion of `<<` and `\|`: a value in [0, 2^32) congruent to the input modulo 2^32 |
| Packing.ToInt32 | src/global.ts:69-75 | the result conversion of every bitwise operator: an int32 congruent to the input modulo 2^32 |
| Packing.Pack | src/global.ts:69-71 | `packLocation`: for x in [-2^16, 2^16) and z in [0, 2^15) the packed value is x·2^15 + z, so it is 0 only at the origin |
| Packing.Unpack | src/global.ts:73-75 | `packed >> 15` is the floor quotient by 2^15, and `packed & 0x7FFF` is the non-negative remainder, always in [0, 0x7FFF], for every int32 |
| Packing.PackIsArithmetic | src/global.ts:69-71 | for x in [-2^16, 2^16) and z in [0, 2^15), `(x << 15) \| z` neither wraps nor mixes bits: it equals x·2^15 + z |
| Packing.RoundTrip | src/global.ts:69-75 | `unpackLocation(packLocation(x, z)) == [x, z]` for x in [-2^16, 2^16) and z in [0, 2^15) |
| Packing.PackUnpack | src/global.ts:69-75 | packing the two components of any unpacked int32 gives that int32 back |
| Packing.OrWithLowBits | src/global.ts:70 | or-ing a value below 2^k into a multiple of 2^k is addition |
| Packing.LowBitsOfInt32 | src/global.ts:74 | `n & 0x7FFF` on an int32 is its remainder modulo 2^15, negative n included |
| Packing.MaskSplit | src/global.ts:74 | masking with 2^k − 1 leaves the remainder of an exact split by 2^k |
| Decimal.Show | src/global.ts:64 | `toString()` of an integer: non-empty, all digits exactly when the integer is non-negative, with no leading zero (only 0 starts with `0`), and a negative integer is `-` followed by a non-zero digit |
| Decimal.ParseShow | src/global.ts:64 | the decimal text of an integer reads back as that integer |
| Decimal.ShowInjective | src/global.ts:30-33 | different ids have different texts, so text-keyed maps can be keyed by the id |
| Template.WordRun | src/global.ts:47 | `\w+` matches the longest run of word characters |
| Template.PlaceholderAt | src/global.ts:47 | the regex matches a `{word}` at a position exactly when one starts there, and captures its key |
| Template.FormatPlaceholder | src/global.ts:47-49 | a matched `{key}` becomes the value when the key is present and stays verbatim otherwise; the scan resumes after it |
| Template.FormatInert | src/global.ts:47 | text in which every `{` is followed by a non-word character is copied unchanged |
| Template.FormatRender | src/global.ts:46-50 | formatting a well-formed template equals the reference expansion: each hole substituted once, values never rescanned |
| Template.FormatTextThenHole | src/global.ts:47-49 | literal text followed by a placeholder: the text is kept and the placeholder substituted |
| Template.Format | src/global.ts:46-50 | `format` itself, one left-to-right scan; with no values it returns its input unchanged, every match kept as is |
| Template.NoBraceIsInert | src/global.ts:47 | text without `{` is inert |
| Template.BraceThenInert | src/global.ts:47 | a `{` followed by inert text that starts with a non-word character is inert |
| Template.InertAppend | src/global.ts:47 | the concatenation of two inert texts is inert |
| Tracker.InitialIsWf | src/global.ts:44 | at start-up no timer is armed and no id is pending |
| Timeout.Arm | src/global.ts:78-109 | arming adds the id to `timeoutQueue`; it appends a timer only when the id was not pending, and keeps one timer per pending id |
| Timeout.ArmIdempotent | src/global.ts:79 | arming an id twice is arming it once |
| Timeout.WaystonesAfterFlush | src/global.ts:84-92 | a waystone is recorded as (claim, location) exactly when the id has a building, the claim has a non-empty name and the location is non-zero; otherwise the map is unchanged |
| Timeout.ResourcesAfterFlush | src/global.ts:94-100 | when location and resource type are both non-zero, the id is set in that type's map (created if missing); every other type is unchanged; otherwise nothing changes |
| Timeout.Flush | src/global.ts:82-105 | the flush removes the id from both queues and from `timeoutQueue`, records as above, and never touches `buildings` or the other maps |
| Timeout.Fire | src/global.ts:80-106 | the earliest armed timer fires: it is removed and exactly its id leaves the pending set; the flush of that id runs, recording as `WaystonesAfterFlush` and `ResourcesAfterFlush` say and dropping the id from both queues; nothing else changes; one timer per pending id is kept |
| Timeout.ZeroLocationIsDropped | src/global.ts:89-95 | a packed location of 0 is falsy: nothing is recorded |
| Timeout.ZeroResourceIsDropped | src/global.ts:95 | a resource type of 0 is falsy: no resource is recorded |
| Timeout.FlushTwice | src/global.ts:102-105 | a second flush of the same id records nothing new |
| BuildingStateSub.BuildingStateInsert | src/subscriptions/buildingStateSub.ts:4-6 | sets the building's claim, overwriting; no other map changes |
| BuildingStateSub.BuildingStateDelete | src/subscriptions/buildingStateSub.ts:8-10 | removes the building; an absent id is a no-op; no other map changes |
| BuildingStateSub.InsertThenDelete | src/subscriptions/buildingStateSub.ts:4-10 | insert then delete of one id leaves it absent, as a delete alone would |
| ClaimStateSub.ClaimStateInsert | src/subscriptions/claimStateSub.ts:4-6 | sets the claim's name, overwriting; no other map changes |
| ClaimStateSub.ClaimStateDelete | src/subscriptions/claimStateSub.ts:8-10 | removes the claim; an absent id is a no-op; no other map changes |
| ClaimStateSub.InsertThenDelete | src/subscriptions/claimStateSub.ts:4-10 | insert then delete of one id leaves it absent, as a delete alone would |
| EmpirePlayerDataStateSub.EmpirePlayerDataStateInsert | src/subscriptions/empirePlayerDataStateSub.ts:4-6 | maps the player to its empire id; `empires` and every other map is unchanged |
| EmpirePlayerDataStateSub.EmpirePlayerDataStateDelete | src/subscriptions/empirePlayerDataStateSub.ts:8-10 | removes the player; an absent id is a no-op; no other map changes |
| EmpirePlayerDataStateSub.LastWriteWins | src/subscriptions/empirePlayerDataStateSub.ts:4-6 | of two inserts for one player the later wins |
| EmpireStateSub.EmpireStateInsert | src/subscriptions/empireStateSub.ts:4-6 | sets the empire's name, overwriting; no other map changes |
| EmpireStateSub.EmpireStateDelete | src/subscriptions/empireStateSub.ts:8-10 | removes the empire; an absent id is a no-op; no other map changes |
| EmpireStateSub.EmpireStateUpdate | src/subscriptions/empireStateSub.ts:12-14 | ignores the old row: equal to the insert of the new row |
| PlayerUsernameStateSub.PlayerUsernameStateInsert | src/subscriptions/playerUsernameStateSub.ts:4-6 | sets the player's name, overwriting; no other map changes |
| PlayerUsernameStateSub.PlayerUsernameStateDelete | src/subscriptions/playerUsernameStateSub.ts:8-10 | removes the player; an absent id is a no-op; no other map changes |
| PlayerUsernameStateSub.PlayerUsernameStateUpdate | src/subscriptions/playerUsernameStateSub.ts:12-14 | ignores the old row: equal to the insert of the new row |
| ResourceStateSub.ResourceStateInsert | src/subscriptions/resourceStateSub.ts:4-7 | queues the resource type under the entity; arms no flush, and no other map changes |
| ResourceStateSub.ResourceStateDelete | src/subscriptions/resourceStateSub.ts:9-16 | removes the entity from the queue and from its type's locations only; the type keeps its (possibly empty) entry, and a type without one is left alone |
| ResourceStateSub.DeleteAfterFlush | src/subscriptions/resourceStateSub.ts:11-15 | deleting a resource whose location was recorded removes exactly that record |
| LocationStateSub.LocationStateInsert | src/subscriptions/locationStateSub.ts:4-8 | queues `packLocation(x, z)`, overwriting, and arms the flush, which changes nothing if already pending; one timer per pending id is kept |
| LocationStateSub.LocationStateDelete | src/subscriptions/locationStateSub.ts:10-13 | removes the queued location only; recorded locations and armed timers stay |
| LocationStateSub.LocationStateUpdate | src/subscriptions/locationStateSub.ts:15-19 | ignores the old row: equal to the insert of the new row |
| LocationStateSub.DeleteBeforeFlush | src/subscriptions/locationStateSub.ts:10-13 | a delete before the pending flush means that flush records nothing |
| LocationStateSub.QueuedLocationUnpacks | src/subscriptions/locationStateSub.ts:6 | the queued value unpacks to the row's coordinates when they fit the packing |
| ProgressiveActionStateSub.Settlement | src/subscriptions/progressiveActionStateSub.ts:10-14 | 'Dragons Head' exactly for the Dragons Head claim, 'Dragons Tail' exactly for the Dragons Tail claim, none otherwise |
| ProgressiveActionStateSub.ResolveEmpire | src/subscriptions/progressiveActionStateSub.ts:25-27 | player → empire id → name; absent when a lookup misses or the name is empty |
| ProgressiveActionStateSub.ProgressiveActionStateInsert | src/subscriptions/progressiveActionStateSub.ts:4-32 | a message exactly when the craft is big (not the initial reply, watched claim, known recipe, effort > 1, named owner); owner, empire, effort = count × actions, tier, station and location as looked up |
| ProgressiveActionStateSub.ReadsOnlyLookups | src/subscriptions/progressiveActionStateSub.ts:4-32 | the decision reads only buildings, recipes, names and empires: states agreeing on those decide alike |
| ProgressiveActionStateSub.DeletedBuildingIsSilent | src/subscriptions/progressiveActionStateSub.ts:7-8 | after the building's delete, its crafts are not reported |
| ProgressiveActionStateSub.DeletedOwnerIsSilent | src/subscriptions/progressiveActionStateSub.ts:20-22 | after the owner's name is deleted, its crafts are not reported |
| ProgressiveActionStateSub.DeletedEmpireIsDropped | src/subscriptions/progressiveActionStateSub.ts:25-27 | after the owner's empire is deleted, the same crafts are reported, without an empire |
| ProgressiveActionStateSub.RenamedOwner | src/subscriptions/progressiveActionStateSub.ts:20-31 | renaming the owner changes only the report's owner |
| Recipes.LastBuilding | src/global.ts:54-56 | a row with the id that no later row with the same id follows, or none when no row has the id |
| Recipes.LoadBuildingDesc | src/global.ts:52-57 | every listed id maps to the name of its last row; other ids keep their entry |
| Recipes.Entry | src/global.ts:64 | the stored triple: the non-empty building name, the tier text (which reads back as the tier), the actions required |
| Recipes.LastKnownRecipe | src/global.ts:61-65 | a row with the id and a named building that no later such row follows, or none when no such row exists |
| Recipes.LoadRecipeDesc | src/global.ts:59-66 | a recipe id is stored, as the entry of its last row with a named building, exactly when such a row exists; rows with unknown or unnamed buildings are skipped |
| Recipes.Load | src/index.ts:22-23 | every building id takes the name of its last row, and ids without rows keep theirs; every recipe id takes the entry of its last row whose building then has a name; every newly loaded recipe comes from such a row; no building id appears that neither the old table nor a row has; an old recipe that no such row replaces is kept; nothing else changes |
| Recipes.LoadedStationIsLastName | src/global.ts:52-66 | from empty tables, a loaded recipe's station is the name given by the last building row of its building type |
| Recipes.LastBuildingAt | src/global.ts:54-56 | conversely, a row that no later row with its id follows is the one found for its id |
| Recipes.LastKnownRecipeAt | src/global.ts:61-65 | conversely, the last row with its id and a named building is the one found for its id |
| Recipes.LoadOneMore | src/global.ts:61-65 | one more row is stored under its id when its building has a name, and skipped otherwise |
| Recipes.LoadedRecipesAreKnown | src/global.ts:62-64 | every loaded recipe comes from a listed row with a named building |
| Recipes.UnknownBuildingIsSkipped | src/global.ts:63 | a row whose building has no name changes nothing, at any position in the list and from any prior table |
| Webhook.Target | src/global.ts:122-176 | status messages target every chat, the fruit report the fruit chat, crafts the craft chat |
| Webhook.Hooks | src/global.ts:184-194 | the big-craft hook is posted to unless the message is the fruit report, and the fruit hook unless it is a craft; when both, big-craft first |
| Webhook.CraftGoesToCraftChat | src/global.ts:176-194 | a craft notification is posted to the big-craft webhook only |
| Webhook.Fruits | src/global.ts:139-146 | "all collected" exactly when the fruit type has no entry or an empty one; otherwise the count is its size, so the early return is unreachable |
| Webhook.AllCollectedReport | src/global.ts:137-141 | a body is produced exactly when the report is "all collected"; it is the template with the title "Traveler's Fruits", the all-collected description, no URL and the yellow colour `8421376` |
| Webhook.FlushedFruitIsGatherable | src/global.ts:139 | once a fruit's location is flushed, the report is not "all collected" |
| Webhook.StatusEmbed | src/global.ts:124-136 | the init message is green, the three error messages are red, none has a URL |
| Webhook.CraftEmbed | src/global.ts:181 | craft embeds are green and have no URL |
| Webhook.EmpireLineWhenKnown | src/global.ts:178-179 | the craft description has the empire line exactly when the empire is truthy, and is otherwise the description without it |
| Webhook.CraftDescription | src/global.ts:177-179 | the description starts with the owner line and ends with the detail lines; it is longer by exactly the empire line when the empire is truthy |
| Webhook.TextIsInert | src/global.ts:21 | in the literal text of the embed template every `{` is followed by a non-word character, so no placeholder starts there |
| Webhook.ContentSplices | src/global.ts:21-50 | formatting the embed template with an embed's values splices title, description, url and color text in once each, verbatim |
| Webhook.Content | src/global.ts:126-181 | the posted body is the template text with the four fields spliced in verbatim; a field that looks like a placeholder is not expanded again |
| SubscriptionHandle.New | sdk/index.d.ts:931-932 | a fresh handle is neither active nor ended |
| SubscriptionHandle.Step | sdk/index.d.ts:910-941 | ended exactly after an error or an unsubscribe confirmation; active once applied until then; `on_end` only on a confirmed `unsubscribeThen`; an unsubscribe call marks the handle as unsubscribing and records whether it registered `on_end`, and no other input changes either; at most one callback per input |
| SubscriptionHandle.Lifecycle | sdk/index.d.ts:926-941 | along any legal run: ended iff an error or confirmation happened, active iff applied and not ended since, and at most one of `on_end`/`on_error`, once |
| SubscriptionHandle.FromNew | sdk/index.d.ts:927-941 | from a fresh handle, `isActive` holds exactly between `on_applied` and the end, and `isEnded` exactly after it |
| SubscriptionHandle.NoEndAfterError | sdk/index.d.ts:920-922 | when `on_error` fires, `on_end` is not invoked |
| SubscriptionHandle.ThenEnds | sdk/index.d.ts:910-925 | from an active handle, `unsubscribeThen` followed by the server's confirmation runs its `on_end` callback exactly once, and a plain `unsubscribe` followed by it runs no callback |
| Connection.After | sdk/index.d.ts:895-897 | a call commits the connection to its kind, and a used connection keeps its kind |
| Connection.OneKind | sdk/index.d.ts:895-902 | a fresh connection's call sequence meets the rule exactly when all calls are of one kind |
| Connection.SameKind | sdk/index.d.ts:895-902 | from a used kind, the allowed calls are exactly those of that kind |
| Connection.OnDisconnect | sdk/index.d.ts:565-574 | registration succeeds exactly when none was made before, and then records the callback |
| Connection.RegisterTwice | sdk/index.d.ts:565-574 | a second registration on one builder always fails |
| Session.Apply | src/index.ts:29-52 | each registered event goes to its handler; a location update, which has no handler, changes nothing; only a craft can send a message, exactly when it is big, and it changes no state; only location inserts and timers touch the timers; one timer per pending id is kept |
| Session.Run | src/index.ts:29-52 | a run sends at most one message per step, and none when no craft starts |
| Session.RunKeepsWf | src/global.ts:78-109 | along any feasible run every pending id keeps exactly one armed timer |
| Session.RunSendsOnlyCrafts | src/index.ts:29-52 | row events and flushes send only craft notifications, to the big-craft webhook |
| Session.PendingWillFire | src/global.ts:78-109 | every pending id has an armed timer |
| Session.ResourceThenLocation | src/global.ts:94-105 | resource row, location row, then the flush: the resource is recorded at the packed location, which unpacks to the row's coordinates, and the queues are drained |
| Session.OriginIsNeverRecorded | src/global.ts:89-95 | an entity at (0, 0) packs to 0 and is never recorded |
| Session.MovedWaystoneIsNotTracked | src/index.ts:35-36 | an update of a recorded waystone's location queues nothing and arms nothing, so the old location stays recorded |
| Session.ApplyWithLocationUpdates | src/subscriptions/locationStateSub.ts:15-19 | with `LocationStateUpdate` registered, a location update is a location insert of the new row; every other step is as in `Session.Apply`; one timer per pending id is kept |
| Session.MovedWaystoneIsTracked | src/global.ts:80-105 | with the update handler registered, a moved waystone is recorded at its new packed location when the armed flush fires |

## Left out

- `src/index.ts` plumbing is not modelled: building the connection, the SQL subscription strings, the GC timers and restarts. Callback registration is modelled by `Session.Apply`'s dispatch: `Session.Step` lists the registered row events, the location update that has no handler, and the firing of a timer.
- The HTTP `fetch` calls, console and `chalk` logging are I/O. Only which webhooks a message is posted to, and the body for embeds, are modelled.
- Webhook.CraftEmbed: the effort's `toLocaleString('en-US')` text is a parameter, because it comes from a locale library.
- The "gatherable" fruit report is not modelled beyond its count: its description finds the nearest waystone with `Math.sqrt` and prints `toFixed` floats, and its URL lists fruits in map insertion order.
- `readFileSync` and `JSON.parse` in `loadBuildingDesc`/`loadRecipeDesc` are file I/O. The joins take the parsed lists as input.
- Timing of `setTimeout` is not modelled: arming and firing are separate steps, with firing in arming order.
- `scheduleShutdown` and `process.exit` are process control.
- The `in` operator of `format` also sees inherited keys such as `toString`. Values are a plain map of keys to their text.
- The SDK's codec, `TableCache`, `ClientCache` and `DbConnectionImpl` message routing are only declared, so their algorithms are not modelled. Event payloads (reducer details, error values) are abstracted to the event's kind.
- `claimTotemPositions` and `waystoneBuildingId` are declared but never read by the modelled code.
- Decimal.Show: integers only, without the exponent notation JavaScript uses from 10^21 on; tiers and colors are far below that.
- ProgressiveActionStateSub.ProgressiveActionStateInsert: the effort `craftCount * actions_required` is an exact integer product; JavaScript's double multiplication only differs above 2^53.

## Findings

| source | as written | input that shows it | evidently intended | confidence | as-written member | corrected member |
|---|---|---|---|---|---|---|
| src/index.ts:35-36 | only `onInsert` and `onDelete` are registered for `location_state`; `LocationStateUpdate` is never registered | a waystone of a named claim, recorded at one location, moves: the server replaces its location row, which the SDK reports as one `update` (sdk/index.d.ts:978-981, 1006, 1056); nothing is queued or armed, and the old location stays recorded | register `LocationStateUpdate` for updates, as the handler in src/subscriptions/locationStateSub.ts:15-19 and the comment at src/global.ts:102 expect | medium, not executed: whether a move reaches the client as an update depends on the server replacing the row under the same primary key | Session.MovedWaystoneIsNotTracked | Session.ApplyWithLocationUpdates |

`Session.Run` and the run lemmas keep the registration as the program has
it. `Session.MovedWaystoneIsTracked` proves the intended behaviour of the
corrected dispatch.

=== FILE: building_state_sub.dfy ===
/** Row events of `building_state`: which claim each building belongs to. */
module BuildingStateSub {
  import opened Maps
  import opened Tracker

  /** The fields of a `building_state` row the handlers read. */
  datatype BuildingState = BuildingState(entityId: EntityId, claimEntityId: EntityId)

  function BuildingStateInsert(st: State, row: BuildingState): (r: State)
    ensures Overwrites(st.buildings, r.buildings, row.entityId, row.claimEntityId)
    ensures r == st.(buildings := r.buildings)
  {
    st.(buildings := st.buildings[row.entityId := row.claimEntityId])
  }

  function BuildingStateDelete(st: State, row: BuildingState): (r: State)
    ensures Erases(st.buildings, r.buildings, row.entityId)
    ensures row.entityId !in st.buildings ==> r == st
    ensures r == st.(buildings := r.buildings)
  {
    st.(buildings := st.buildings - {row.entityId})
  }

  /** A delete undoes any insert of the same building: the key ends up absent. */
  lemma InsertThenDelete(st: State, inserted: BuildingState, deleted: BuildingState)
    requires inserted.entityId == deleted.entityId
    ensures BuildingStateDelete(BuildingStateInsert(st, inserted), deleted) == BuildingStateDelete(st, deleted)
    ensures deleted.entityId !in BuildingStateDelete(BuildingStateInsert(st, inserted), deleted).buildings
  {
    assert st.buildings[inserted.entityId := inserted.claimEntityId] - {deleted.entityId}
        == st.buildings - {deleted.entityId};
  }
}

=== FILE: claim_state_sub.dfy ===
/** Row events of `claim_state`: the names of claims that have a waystone. */
module ClaimStateSub {
  import opened Maps
  import opened Tracker

  /** The fields of a `claim_state` row the handlers read. */
  datatype ClaimState = ClaimState(entityId: EntityId, name: string)

  function ClaimStateInsert(st: State, row: ClaimState): (r: State)
    ensures Overwrites(st.claimsWithWaystones, r.claimsWithWaystones, row.entityId, row.name)
    ensures r == st.(claimsWithWaystones := r.claimsWithWaystones)
  {
    st.(claimsWithWaystones := st.claimsWithWaystones[row.entityId := row.name])
  }

  function ClaimStateDelete(st: State, row: ClaimState): (r: State)
    ensures Erases(st.claimsWithWaystones, r.claimsWithWaystones, row.entityId)
    ensures row.entityId !in st.claimsWithWaystones ==> r == st
    ensures r == st.(claimsWithWaystones := r.claimsWithWaystones)
  {
    st.(claimsWithWaystones := st.claimsWithWaystones - {row.entityId})
  }

  /** A delete undoes any insert of the same claim: the key ends up absent. */
  lemma InsertThenDelete(st: State, inserted: ClaimState, deleted: ClaimState)
    requires inserted.entityId == deleted.entityId
    ensures ClaimStateDelete(ClaimStateInsert(st, inserted), deleted) == ClaimStateDelete(st, deleted)
    ensures deleted.entityId !in ClaimStateDelete(ClaimStateInsert(st, inserted), deleted).claimsWithWaystones
  {
    assert st.claimsWithWaystones[inserted.entityId := inserted.name] - {deleted.entityId}
        == st.claimsWithWaystones - {deleted.entityId};
  }
}

=== FILE: decimal.dfy ===
/**
 * Decimal text of integers, as `Number.prototype.toString()` and
 * `BigInt.prototype.toString()` render them: an optional `-` followed by the
 * digits, without leading zeros.
 */
module Decimal {
  import opened Wrappers

  predicate IsDigit(c: char) {
    '0' <= c <= '9'
  }

  predicate AllDigits(s: string) {
    forall i :: 0 <= i < |s| ==> IsDigit(s[i])
  }

  function DigitChar(d: nat): (c: char)
    requires d < 10
    ensures IsDigit(c)
  {
    "0123456789"[d]
  }

  function DigitValue(c: char): (d: nat)
    requires IsDigit(c)
    ensures d < 10
  {
    c as int - '0' as int
  }

  /** The decimal digits of a natural number. */
  function ShowNat(n: nat): (s: string)
    ensures |s| >= 1 && AllDigits(s)
    ensures s[0] == '0' ==> n == 0
  {
    if n < 10 then [DigitChar(n)] else ShowNat(n / 10) + [DigitChar(n % 10)]
  }

  /** The text of an integer. */
  function Show(n: int): (s: string)
    ensures |s| >= 1
    ensures n >= 0 <==> AllDigits(s)
    ensures n >= 0 && s[0] == '0' ==> n == 0
    ensures n < 0 ==> |s| >= 2 && s[0] == '-' && s[1] != '0'
  {
    if n < 0 then
      var s := "-" + ShowNat(-n);
      assert !IsDigit(s[0]);
      s
    else ShowNat(n)
  }

  /** The value of a string of decimal digits. */
  function ParseNat(s: string): nat
    requires AllDigits(s)
  {
    if |s| == 0 then 0 else 10 * ParseNat(s[..|s| - 1]) + DigitValue(s[|s| - 1])
  }

  /** Reads back an integer written by `Show`; `None` for anything else. */
  function Parse(s: string): Option<int> {
    if |s| >= 2 && s[0] == '-' && AllDigits(s[1..]) then Some(-(ParseNat(s[1..]) as int))
    else if |s| >= 1 && AllDigits(s) then Some(ParseNat(s))
    else None
  }

  lemma {:induction false} ParseShowNat(n: nat)
    ensures ParseNat(ShowNat(n)) == n
  {
    if n >= 10 {
      ParseShowNat(n / 10);
      var s := ShowNat(n);
      assert s[..|s| - 1] == ShowNat(n / 10);
    }
  }

  /** Reading back the text of an integer gives that integer. */
  lemma ParseShow(n: int)
    ensures Parse(Show(n)) == Some(n)
  {
    if n < 0 {
      assert Show(n) == "-" + ShowNat(-n);
      ParseNegative(-n);
    } else {
      assert Show(n) == ShowNat(n);
      ParseNonNegative(n);
    }
  }

  lemma ParseNegative(m: nat)
    requires m > 0
    ensures Parse("-" + ShowNat(m)) == Some(-(m as int))
  {
    var s := "-" + ShowNat(m);
    ParseShowNat(m);
    assert s[1..] == ShowNat(m);
  }

  lemma ParseNonNegative(n: nat)
    ensures Parse(ShowNat(n)) == Some(n as int)
  {
    ParseShowNat(n);
    assert ShowNat(n)[0] != '-';
  }

  /** Different integers have different texts, so texts can serve as keys. */
  lemma ShowInjective(a: int, b: int)
    ensures Show(a) == Show(b) ==> a == b
  {
    ParseShow(a);
    ParseShow(b);
  }
}

=== FILE: empire_player_data_state_sub.dfy ===
/** Row events of `empire_player_data_state`: the empire each player belongs to. */
module EmpirePlayerDataStateSub {
  import opened Maps
  import opened Tracker

  /** The fields of an `empire_player_data_state` row the handlers read. */
  datatype EmpirePlayerDataState = EmpirePlayerDataState(entityId: EntityId, empireEntityId: EntityId)

  /** Maps the player to the id of its empire; `empires` is read by others, never written here. */
  function EmpirePlayerDataStateInsert(st: State, row: EmpirePlayerDataState): (r: State)
    ensures Overwrites(st.empirePlayerData, r.empirePlayerData, row.entityId, row.empireEntityId)
    ensures r == st.(empirePlayerData := r.empirePlayerData)
  {
    st.(empirePlayerData := st.empirePlayerData[row.entityId := row.empireEntityId])
  }

  function EmpirePlayerDataStateDelete(st: State, row: EmpirePlayerDataState): (r: State)
    ensures Erases(st.empirePlayerData, r.empirePlayerData, row.entityId)
    ensures row.entityId !in st.empirePlayerData ==> r == st
    ensures r == st.(empirePlayerData := r.empirePlayerData)
  {
    st.(empirePlayerData := st.empirePlayerData - {row.entityId})
  }

  /** Of two inserts for one player, the later one wins. */
  lemma LastWriteWins(st: State, first: EmpirePlayerDataState, second: EmpirePlayerDataState)
    requires first.entityId == second.entityId
    ensures EmpirePlayerDataStateInsert(EmpirePlayerDataStateInsert(st, first), second)
         == EmpirePlayerDataStateInsert(st, second)
  {
    assert st.empirePlayerData[first.entityId := first.empireEntityId][second.entityId := second.empireEntityId]
        == st.empirePlayerData[second.entityId := second.empireEntityId];
  }
}

=== FILE: empire_state_sub.dfy ===
/** Row events of `empire_state`: empire names. */
module EmpireStateSub {
  import opened Wrappers
  import opened Maps
  import opened Tracker

  /** The fields of an `empire_state` row the handlers read. */
  datatype EmpireState = EmpireState(entityId: EntityId, name: string)

  function EmpireStateInsert(st: State, row: EmpireState): (r: State)
    ensures Overwrites(st.empires, r.empires, row.entityId, row.name)
    ensures r == st.(empires := r.empires)
  {
    st.(empires := st.empires[row.entityId := row.name])
  }

  function EmpireStateDelete(st: State, row: EmpireState): (r: State)
    ensures Erases(st.empires, r.empires, row.entityId)
    ensures row.entityId !in st.empires ==> r == st
    ensures r == st.(empires := r.empires)
  {
    st.(empires := st.empires - {row.entityId})
  }

  /** An update ignores the old row: it is the insert of the new one. */
  function EmpireStateUpdate(st: State, oldRow: Option<EmpireState>, newRow: EmpireState): (r: State)
    ensures r == EmpireStateInsert(st, newRow)
  {
    st.(empires := st.empires[newRow.entityId := newRow.name])
  }
}

=== FILE: location_state_sub.dfy ===
/** Row events of `location_state`: entity positions, queued for the flush. */
module LocationStateSub {
  import opened Wrappers
  import opened Packing
  import opened Maps
  import opened Tracker
  import Timeout

  /** The fields of a `location_state` row the handlers read. */
  datatype LocationState = LocationState(entityId: EntityId, x: Int32, z: Int32)

  /** Queues the packed location, overwriting an earlier one, and arms the flush. */
  function LocationStateInsert(st: State, row: LocationState): (r: State)
    ensures Overwrites(st.locationQueue, r.locationQueue, row.entityId, Pack(row.x, row.z))
    ensures r.timeoutQueue == st.timeoutQueue + {row.entityId}
    ensures row.entityId in st.timeoutQueue ==> r.timers == st.timers
    ensures row.entityId !in st.timeoutQueue ==> r.timers == st.timers + [row.entityId]
    ensures r == st.(locationQueue := r.locationQueue, timeoutQueue := r.timeoutQueue, timers := r.timers)
    ensures Wf(st) ==> Wf(r)
  {
    var id := row.entityId;
    Timeout.Arm(st.(locationQueue := st.locationQueue[id := Pack(row.x, row.z)]), id)
  }

  /**
   * Drops the queued location only. Recorded locations stay; the armed
   * flush stays armed and will find no location.
   */
  function LocationStateDelete(st: State, row: LocationState): (r: State)
    ensures Erases(st.locationQueue, r.locationQueue, row.entityId)
    ensures r == st.(locationQueue := r.locationQueue)
  {
    st.(locationQueue := st.locationQueue - {row.entityId})
  }

  /** An update ignores the old row: it is the insert of the new one. */
  function LocationStateUpdate(st: State, oldRow: Option<LocationState>, newRow: LocationState): (r: State)
    ensures r == LocationStateInsert(st, newRow)
  {
    var id := newRow.entityId;
    Timeout.Arm(st.(locationQueue := st.locationQueue[id := Pack(newRow.x, newRow.z)]), id)
  }

  /** A delete before the flush fires means the flush records nothing for the entity. */
  lemma DeleteBeforeFlush(st: State, row: LocationState)
    ensures var r := Timeout.Flush(LocationStateDelete(st, row), row.entityId);
      && r.waystoneLocations == st.waystoneLocations
      && r.resourceLocations == st.resourceLocations
  {}

  /** The queued location unpacks to the row's coordinates when they fit the packing. */
  lemma QueuedLocationUnpacks(st: State, row: LocationState)
    requires -0x1_0000 <= row.x < 0x1_0000 && 0 <= row.z < 0x8000
    ensures Unpack(LocationStateInsert(st, row).locationQueue[row.entityId]) == (row.x, row.z)
  {
    RoundTrip(row.x, row.z);
  }
}

=== FILE: maps.dfy ===
/** Pointwise descriptions of the two ways the handlers change a keyed map. */
module Maps {

  /** `m1` is `m0` after `m.set(k, v)`: `k` now maps to `v`, every other entry is kept. */
  predicate Overwrites<K, V(==)>(m0: map<K, V>, m1: map<K, V>, k: K, v: V) {
    && m1.Keys == m0.Keys + {k}
    && m1[k] == v
    && forall j :: j in m0 && j != k ==> m1[j] == m0[j]
  }

  /** `m1` is `m0` after `m.delete(k)`: `k` is gone, every other entry is kept. */
  predicate Erases<K, V(==)>(m0: map<K, V>, m1: map<K, V>, k: K) {
    && m1.Keys == m0.Keys - {k}
    && forall j :: j in m1 ==> m1[j] == m0[j]
  }
}

=== FILE: packing.dfy ===
/**
 * 32-bit location packing (`packLocation` / `unpackLocation`).
 *
 * JavaScript's `<<`, `>>`, `|` and `&` convert their operands to 32-bit
 * two's-complement integers (ToInt32 / ToUint32) and produce an int32. This
 * module writes those conversions and the bitwise operators out over
 * unbounded integers.
 */
module Packing {

  const TwoTo32: int := 0x1_0000_0000

  /** A JavaScript number that is a 32-bit signed integer. */
  type Int32 = n: int | -0x8000_0000 <= n < 0x8000_0000

  function Pow2(k: nat): (r: nat)
    ensures r >= 1
  {
    if k == 0 then 1 else 2 * Pow2(k - 1)
  }

  /** ECMAScript ToUint32 on an integral number. */
  function ToUint32(n: int): (r: nat)
    ensures r < TwoTo32
    ensures (n - r) % TwoTo32 == 0
  {
    n % TwoTo32
  }

  /** ECMAScript ToInt32 on an integral number. */
  function ToInt32(n: int): (r: Int32)
    ensures (n - r) % TwoTo32 == 0
  {
    var u := ToUint32(n);
    if u < 0x8000_0000 then u else u - TwoTo32
  }

  /** Bitwise or of two naturals, bit by bit from the least significant one. */
  function BitOr(a: nat, b: nat): nat
    decreases a + b
  {
    if a == 0 then b
    else if b == 0 then a
    else 2 * BitOr(a / 2, b / 2) + (if a % 2 == 1 || b % 2 == 1 then 1 else 0)
  }

  /** Bitwise and of two naturals, bit by bit from the least significant one. */
  function BitAnd(a: nat, b: nat): nat
    decreases a + b
  {
    if a == 0 || b == 0 then 0
    else 2 * BitAnd(a / 2, b / 2) + (if a % 2 == 1 && b % 2 == 1 then 1 else 0)
  }

  /** `a << 15`. */
  function ShiftLeft15(a: int): Int32 {
    ToInt32(ToUint32(a) * 0x8000)
  }

  /** `a >> 15`, the sign-propagating right shift: a floor division. */
  function ShiftRight15(a: int): Int32 {
    ToInt32(a) / 0x8000
  }

  /** `a | b`. */
  function Or(a: int, b: int): Int32 {
    ToInt32(BitOr(ToUint32(a), ToUint32(b)))
  }

  /** `a & b`. */
  function And(a: int, b: int): Int32 {
    ToInt32(BitAnd(ToUint32(a), ToUint32(b)))
  }

  /**
   * `packLocation(x, z)`, i.e. `(x << 15) | z`. On the coordinates the game
   * uses the packing is exact arithmetic, so it is 0 only at the origin.
   */
  function Pack(x: Int32, z: Int32): (r: Int32)
    ensures -0x1_0000 <= x < 0x1_0000 && 0 <= z < 0x8000 ==> r == x * 0x8000 + z
  {
    if -0x1_0000 <= x < 0x1_0000 && 0 <= z < 0x8000 then
      PackIsArithmetic(x, z);
      Or(ShiftLeft15(x), z)
    else Or(ShiftLeft15(x), z)
  }

  /** `unpackLocation(packed)`, i.e. `[packed >> 15, packed & 0x7FFF]`. */
  function Unpack(packed: Int32): (r: (Int32, Int32))
    ensures r.0 == packed / 0x8000
    ensures r.1 == packed % 0x8000
    ensures 0 <= r.1 <= 0x7FFF
  {
    Int32IsFixed(packed);
    LowBitsOfInt32(packed);
    (ShiftRight15(packed), And(packed, 0x7FFF))
  }

  /**
   * Whenever `x` fits in 17 signed bits and `z` in 15 unsigned bits,
   * `(x << 15) | z` neither wraps nor mixes the two: it is `x * 2^15 + z`.
   */
  lemma PackIsArithmetic(x: Int32, z: Int32)
    requires -0x1_0000 <= x < 0x1_0000
    requires 0 <= z < 0x8000
    ensures Or(ShiftLeft15(x), z) == x * 0x8000 + z
  {
    var wrap := if x >= 0 then 0 else 1;
    ShiftOfSmall(x);
    UnsignedShifted(x);
    OrLowBits(x * 0x8000, x + wrap * 0x2_0000, z);
    CongruentInt32((x + wrap * 0x2_0000) * 0x8000 + z, x * 0x8000 + z, wrap);
    Int32IsFixed(x * 0x8000 + z);
  }

  /** Or-ing a 15-bit value into a number whose unsigned view is a multiple of 2^15. */
  lemma OrLowBits(s: int, a: nat, z: int)
    requires ToUint32(s) == a * 0x8000
    requires 0 <= z < 0x8000
    ensures Or(s, z) == ToInt32(a * 0x8000 + z)
  {
    assert ToUint32(z) == z by {
      DivModUnique32(z, 0, z);
    }
    Pow2Of15();
    OrWithLowBits(a, z, 15);
  }


  /** Shifting a value of at most 17 significant bits left by 15 loses nothing. */
  lemma ShiftOfSmall(x: int)
    requires -0x1_0000 <= x < 0x1_0000
    ensures ShiftLeft15(x) == x * 0x8000
  {
    var wrap := if x >= 0 then 0 else 1;
    assert ToUint32(x) == x + wrap * TwoTo32 by {
      DivModUnique32(x, -wrap, x + wrap * TwoTo32);
    }
    assert ToUint32(x) * 0x8000 == x * 0x8000 + (wrap * 0x8000) * TwoTo32;
    CongruentInt32(ToUint32(x) * 0x8000, x * 0x8000, wrap * 0x8000);
    Int32IsFixed(x * 0x8000);
  }

  /** The unsigned view of `x << 15` is a multiple of 2^15. */
  lemma UnsignedShifted(x: int)
    requires -0x1_0000 <= x < 0x1_0000
    ensures ToUint32(x * 0x8000) == (x + (if x >= 0 then 0 else 1) * 0x2_0000) * 0x8000
  {
    var wrap := if x >= 0 then 0 else 1;
    DivModUnique32(x * 0x8000, -wrap, (x + wrap * 0x2_0000) * 0x8000);
  }

  /** Unpacking a packed location gives back both coordinates. */
  lemma RoundTrip(x: Int32, z: Int32)
    requires -0x1_0000 <= x < 0x1_0000
    requires 0 <= z < 0x8000
    ensures Unpack(Pack(x, z)) == (x, z)
  {
    DivModUnique(x * 0x8000 + z, x, z);
  }

  /** Packing what was unpacked gives back the packed value, for every int32. */
  lemma PackUnpack(packed: Int32)
    ensures Pack(Unpack(packed).0, Unpack(packed).1) == packed
  {
    var x := packed / 0x8000;
    var z := packed % 0x8000;
    assert packed == x * 0x8000 + z;
    PackIsArithmetic(x, z);
  }

  // Arithmetic facts behind the bitwise operators.

  lemma Pow2Of15()
    ensures Pow2(15) == 0x8000
  {
    assert Pow2(4) == 16;
    assert Pow2(8) == 256;
    assert Pow2(12) == 4096;
  }

  lemma DivModUnique(u: int, q: int, r: int)
    requires u == q * 0x8000 + r && 0 <= r < 0x8000
    ensures u / 0x8000 == q && u % 0x8000 == r
  {}

  lemma DivModUnique32(u: int, q: int, r: int)
    requires u == q * TwoTo32 + r && 0 <= r < TwoTo32
    ensures u / TwoTo32 == q && u % TwoTo32 == r
  {}

  /** ToInt32 leaves a number that already is an int32 unchanged. */
  lemma Int32IsFixed(n: Int32)
    ensures ToInt32(n) == n
  {
    if n < 0 {
      DivModUnique32(n, -1, n + TwoTo32);
    } else {
      DivModUnique32(n, 0, n);
    }
  }

  /** Two integers congruent modulo 2^32 convert to the same int32. */
  lemma CongruentInt32(m: int, n: int, k: int)
    requires m == n + k * TwoTo32
    ensures ToInt32(m) == ToInt32(n)
  {
    var r := n % TwoTo32;
    DivModUnique32(n, n / TwoTo32, r);
    DivModUnique32(m, n / TwoTo32 + k, r);
  }

  /** `n & 0x7FFF` is the remainder of `n` by 2^15. */
  lemma LowBitsOfInt32(n: Int32)
    ensures And(n, 0x7FFF) == n % 0x8000
  {
    var wrap := if n >= 0 then 0 else 1;
    var u := ToUint32(n);
    assert u == n + wrap * TwoTo32 by {
      DivModUnique32(n, -wrap, n + wrap * TwoTo32);
    }
    assert ToUint32(0x7FFF) == 0x7FFF by {
      DivModUnique32(0x7FFF, 0, 0x7FFF);
    }
    Pow2Of15();
    MaskSplit(u, 15);
    var low := BitAnd(u, 0x7FFF);
    var high := HighBits(u, 15);
    assert u == high * 0x8000 + low && low < 0x8000;
    DivModUnique(n, high - wrap * 0x2_0000, low);
    Int32IsFixed(low);
  }

  /** Or-ing a value below 2^k into a multiple of 2^k is an addition. */
  lemma {:induction false} OrWithLowBits(a: nat, z: nat, k: nat)
    requires z < Pow2(k)
    ensures BitOr(a * Pow2(k), z) == a * Pow2(k) + z
  {
    if k == 0 {
    } else if a == 0 || z == 0 {
    } else {
      var p := Pow2(k - 1);
      var half := a * p;
      assert a * Pow2(k) == 2 * half by {
        Regroup(a, p);
      }
      Halves(2 * half, half, 0);
      assert z / 2 < p;
      OrWithLowBits(a, z / 2, k - 1);
      assert BitOr(2 * half, z) == 2 * BitOr(half, z / 2) + z % 2;
    }
  }

  lemma Halves(u: int, q: int, r: int)
    requires u == 2 * q + r && 0 <= r < 2
    ensures u / 2 == q && u % 2 == r
  {}

  /** The bits of `u` above the lowest `k`. */
  function HighBits(u: nat, k: nat): nat {
    if k == 0 then u else HighBits(u / 2, k - 1)
  }

  /** And-ing with 2^k - 1 keeps exactly the low k bits of `u`. */
  lemma {:induction false} MaskSplit(u: nat, k: nat)
    ensures u == HighBits(u, k) * Pow2(k) + BitAnd(u, Pow2(k) - 1)
    ensures BitAnd(u, Pow2(k) - 1) < Pow2(k)
  {
    if k == 0 {
    } else if u == 0 {
      MaskSplit(0, k - 1);
    } else {
      var m := Pow2(k) - 1;
      var p := Pow2(k - 1);
      assert m / 2 == p - 1 && m % 2 == 1;
      MaskSplit(u / 2, k - 1);
      var q := HighBits(u / 2, k - 1);
      var low := BitAnd(u / 2, p - 1);
      assert BitAnd(u, m) == 2 * low + u % 2;
      assert u / 2 == q * p + low;
      assert u == 2 * (q * p) + (2 * low + u % 2);
      Regroup(q, p);
      assert HighBits(u, k) == q && Pow2(k) == 2 * p;
    }
  }

  lemma Regroup(q: nat, p: nat)
    ensures 2 * (q * p) == q * (2 * p)
  {}
}

=== FILE: player_username_state_sub.dfy ===
/** Row events of `player_username_state`: player names. */
module PlayerUsernameStateSub {
  import opened Wrappers
  import opened Maps
  import opened Tracker

  /** The fields of a `player_username_state` row the handlers read. */
  datatype PlayerUsernameState = PlayerUsernameState(entityId: EntityId, username: string)

  function PlayerUsernameStateInsert(st: State, row: PlayerUsernameState): (r: State)
    ensures Overwrites(st.playerUsernames, r.playerUsernames, row.entityId, row.username)
    ensures r == st.(playerUsernames := r.playerUsernames)
  {
    st.(playerUsernames := st.playerUsernames[row.entityId := row.username])
  }

  function PlayerUsernameStateDelete(st: State, row: PlayerUsernameState): (r: State)
    ensures Erases(st.playerUsernames, r.playerUsernames, row.entityId)
    ensures row.entityId !in st.playerUsernames ==> r == st
    ensures r == st.(playerUsernames := r.playerUsernames)
  {
    st.(playerUsernames := st.playerUsernames - {row.entityId})
  }

  /** An update ignores the old row: it is the insert of the new one. */
  function PlayerUsernameStateUpdate(st: State, oldRow: Option<PlayerUsernameState>, newRow: PlayerUsernameState): (r: State)
    ensures r == PlayerUsernameStateInsert(st, newRow)
  {
    st.(playerUsernames := st.playerUsernames[newRow.entityId := newRow.username])
  }
}

=== FILE: progressive_action_state_sub.dfy ===
/**
 * Inserts of `progressive_action_state`: the decision whether a craft that
 * just started is a big craft in one of the two watched settlements, and
 * the notification it yields. The decision reads the state and never
 * changes it.
 */
module ProgressiveActionStateSub {
  import opened Wrappers
  import opened Tracker
  import opened SdkEvent
  import BuildingStateSub
  import PlayerUsernameStateSub
  import EmpireStateSub

  /** The fields of a `progressive_action_state` row the decision reads. */
  datatype ProgressiveActionState = ProgressiveActionState(
    buildingEntityId: EntityId,
    recipeId: int,
    craftCount: int,
    ownerEntityId: EntityId)

  /** The settlement a claim stands for, if it is one of the two watched claims. */
  function Settlement(claim: EntityId): (r: Option<string>)
    ensures r == Some("Dragons Head") <==> claim == DragonsHeadId
    ensures r == Some("Dragons Tail") <==> claim == DragonsTailId
    ensures r.None? <==> claim != DragonsHeadId && claim != DragonsTailId
  {
    if claim == DragonsHeadId then Some("Dragons Head")
    else if claim == DragonsTailId then Some("Dragons Tail")
    else None
  }

  /**
   * The owner's empire name: player to empire id, empire id to name. It is
   * absent when either lookup misses or the name is empty.
   */
  function ResolveEmpire(st: State, player: EntityId): (r: Option<string>)
    ensures r.Some? <==>
      && player in st.empirePlayerData
      && st.empirePlayerData[player] in st.empires
      && st.empires[st.empirePlayerData[player]] != ""
    ensures r.Some? ==> r.value == st.empires[st.empirePlayerData[player]]
  {
    var empireId := Get(st.empirePlayerData, player);
    var empire := if empireId.Some? then Get(st.empires, empireId.value) else None;
    if TruthyText(empire) then empire else None
  }

  /**
   * When a craft is worth a notification, stated directly on the maps: not
   * part of the initial subscription reply, in a building of a watched
   * claim, of a known recipe with total effort above the threshold, and by
   * a player with a non-empty name.
   */
  predicate IsBigCraft(st: State, event: Event, row: ProgressiveActionState) {
    && event != SubscribeApplied
    && row.buildingEntityId in st.buildings
    && (st.buildings[row.buildingEntityId] == DragonsHeadId || st.buildings[row.buildingEntityId] == DragonsTailId)
    && row.recipeId in st.craftingRecipes
    && row.craftCount * st.craftingRecipes[row.recipeId].effort > BigCraftThreshold
    && row.ownerEntityId in st.playerUsernames
    && st.playerUsernames[row.ownerEntityId] != ""
  }

  /** The notification for a craft, or none. */
  function ProgressiveActionStateInsert(st: State, event: Event, row: ProgressiveActionState): (r: Option<CraftInfo>)
    ensures r.Some? <==> IsBigCraft(st, event, row)
    ensures r.Some? ==>
      var recipe := st.craftingRecipes[row.recipeId];
      && r.value.owner == st.playerUsernames[row.ownerEntityId]
      && r.value.empire == ResolveEmpire(st, row.ownerEntityId)
      && r.value.effort == row.craftCount * recipe.effort
      && r.value.effort > BigCraftThreshold
      && r.value.tier == recipe.tier
      && r.value.station == recipe.station
      && Settlement(st.buildings[row.buildingEntityId]) == Some(r.value.location)
  {
    if event == SubscribeApplied then None
    else
      var claimId := Get(st.buildings, row.buildingEntityId);
      if claimId.None? then None
      else
        var location := Settlement(claimId.value);
        if location.None? then None
        else
          var recipeInfo := Get(st.craftingRecipes, row.recipeId);
          if recipeInfo.None? || row.craftCount * recipeInfo.value.effort <= BigCraftThreshold then None
          else
            var owner := Get(st.playerUsernames, row.ownerEntityId);
            if !TruthyText(owner) then None
            else
              var effort := row.craftCount * recipeInfo.value.effort;
              Some(CraftInfo(owner.value, ResolveEmpire(st, row.ownerEntityId), effort,
                             recipeInfo.value.tier, recipeInfo.value.station, location.value))
  }

  /** The maps the decision reads. */
  predicate SameLookups(a: State, b: State) {
    && a.buildings == b.buildings
    && a.craftingRecipes == b.craftingRecipes
    && a.playerUsernames == b.playerUsernames
    && a.empirePlayerData == b.empirePlayerData
    && a.empires == b.empires
  }

  /** The decision depends on no other part of the state (queues, trackers, timers). */
  lemma ReadsOnlyLookups(a: State, b: State, event: Event, row: ProgressiveActionState)
    requires SameLookups(a, b)
    ensures ProgressiveActionStateInsert(a, event, row) == ProgressiveActionStateInsert(b, event, row)
  {}

  /** Once the building is deleted, its crafts are not reported. */
  lemma DeletedBuildingIsSilent(st: State, event: Event, row: ProgressiveActionState, building: BuildingStateSub.BuildingState)
    requires building.entityId == row.buildingEntityId
    ensures ProgressiveActionStateInsert(BuildingStateSub.BuildingStateDelete(st, building), event, row).None?
  {}

  /** A craft whose owner has no known name is not reported. */
  lemma DeletedOwnerIsSilent(st: State, event: Event, row: ProgressiveActionState, player: PlayerUsernameStateSub.PlayerUsernameState)
    requires player.entityId == row.ownerEntityId
    ensures ProgressiveActionStateInsert(PlayerUsernameStateSub.PlayerUsernameStateDelete(st, player), event, row).None?
  {}

  /** Deleting the owner's empire keeps the report but drops its empire. */
  lemma DeletedEmpireIsDropped(st: State, event: Event, row: ProgressiveActionState, empire: EmpireStateSub.EmpireState)
    requires row.ownerEntityId in st.empirePlayerData
    requires empire.entityId == st.empirePlayerData[row.ownerEntityId]
    ensures var r := ProgressiveActionStateInsert(EmpireStateSub.EmpireStateDelete(st, empire), event, row);
      && (r.Some? <==> IsBigCraft(st, event, row))
      && (r.Some? ==> r.value.empire.None?)
  {}

  /** Renaming the owner changes only the owner of the report. */
  lemma RenamedOwner(st: State, event: Event, row: ProgressiveActionState, player: PlayerUsernameStateSub.PlayerUsernameState)
    requires player.entityId == row.ownerEntityId
    requires player.username != ""
    requires ProgressiveActionStateInsert(st, event, row).Some?
    ensures ProgressiveActionStateInsert(PlayerUsernameStateSub.PlayerUsernameStateInsert(st, player), event, row)
         == Some(ProgressiveActionStateInsert(st, event, row).value.(owner := player.username))
  {}
}

=== FILE: recipes.dfy ===
/**
 * The static description tables: building names by building type, and
 * crafting recipes joined with the name of the building they are crafted
 * in. Both are folds over an already-parsed list, in list order, so a
 * later row with the same id overwrites an earlier one.
 */
module Recipes {
  import opened Wrappers
  import opened Tracker
  import Decimal

  /** A row of the building description list. */
  datatype BuildingDesc = BuildingDesc(id: int, name: string)

  /** A row of the crafting recipe list. */
  datatype RecipeDesc = RecipeDesc(id: int, buildingType: int, tier: int, actionsRequired: int)

  /** Row `i` of `rows` is the last one with its id. */
  predicate LastOfItsId(rows: seq<BuildingDesc>, i: int) {
    0 <= i < |rows| && forall j :: i < j < |rows| ==> rows[j].id != rows[i].id
  }

  /** The last row of `rows` with this id, if any. */
  function LastBuilding(rows: seq<BuildingDesc>, id: int): (r: Option<BuildingDesc>)
    ensures r.Some? ==> r.value.id == id && exists i :: LastOfItsId(rows, i) && rows[i] == r.value
    ensures r.None? ==> forall i :: 0 <= i < |rows| ==> rows[i].id != id
    decreases |rows|
  {
    if |rows| == 0 then None
    else if rows[|rows| - 1].id == id then Some(rows[|rows| - 1])
    else LastBuilding(rows[..|rows| - 1], id)
  }

  /** `loadBuildingDesc` after parsing: every row sets its name under its id. */
  function LoadBuildingDesc(types: map<int, string>, rows: seq<BuildingDesc>): (r: map<int, string>)
    ensures forall id :: id in r <==> id in types || LastBuilding(rows, id).Some?
    ensures forall id :: id in r ==>
      r[id] == (match LastBuilding(rows, id) case Some(row) => row.name case None => types[id])
    decreases |rows|
  {
    if |rows| == 0 then types
    else
      var row := rows[|rows| - 1];
      LoadBuildingDesc(types, rows[..|rows| - 1])[row.id := row.name]
  }

  /** A recipe row whose building type has a non-empty name. */
  predicate Known(types: map<int, string>, row: RecipeDesc) {
    row.buildingType in types && types[row.buildingType] != ""
  }

  /** The stored entry: the building name, the tier as text, the actions required. */
  function Entry(types: map<int, string>, row: RecipeDesc): (e: Recipe)
    requires Known(types, row)
    ensures e.station == types[row.buildingType] && e.station != ""
    ensures Decimal.Parse(e.tier) == Some(row.tier)
    ensures e.effort == row.actionsRequired
  {
    Decimal.ParseShow(row.tier);
    Recipe(types[row.buildingType], Decimal.Show(row.tier), row.actionsRequired)
  }

  /** Row `i` of `rows` has a known building, and is the last such row with its id. */
  predicate LastKnownOfItsId(types: map<int, string>, rows: seq<RecipeDesc>, i: int) {
    && 0 <= i < |rows| && Known(types, rows[i])
    && forall j :: i < j < |rows| ==> !(rows[j].id == rows[i].id && Known(types, rows[j]))
  }

  /** The last row of `rows` with this id whose building is known, if any. */
  function LastKnownRecipe(types: map<int, string>, rows: seq<RecipeDesc>, id: int): (r: Option<RecipeDesc>)
    ensures r.Some? ==> r.value.id == id && exists i :: LastKnownOfItsId(types, rows, i) && rows[i] == r.value
    ensures r.None? ==> forall i :: 0 <= i < |rows| && rows[i].id == id ==> !Known(types, rows[i])
    decreases |rows|
  {
    if |rows| == 0 then None
    else if rows[|rows| - 1].id == id && Known(types, rows[|rows| - 1]) then
      assert LastKnownOfItsId(types, rows, |rows| - 1);
      Some(rows[|rows| - 1])
    else
      var before := rows[..|rows| - 1];
      var r := LastKnownRecipe(types, before, id);
      assert r.Some? ==> exists i :: LastKnownOfItsId(types, rows, i) && rows[i] == r.value by {
        if r.Some? {
          var i :| LastKnownOfItsId(types, before, i) && before[i] == r.value;
          assert LastKnownOfItsId(types, rows, i);
        }
      }
      r
  }

  /**
   * `loadRecipeDesc` after parsing: a row whose building type has no name
   * (unknown, or empty) is skipped; any other row stores its entry under
   * its id.
   */
  function LoadRecipeDesc(types: map<int, string>, recipes: map<int, Recipe>, rows: seq<RecipeDesc>): (r: map<int, Recipe>)
    ensures forall id :: id in r <==> id in recipes || LastKnownRecipe(types, rows, id).Some?
    ensures forall id :: id in r ==>
      r[id] == (match LastKnownRecipe(types, rows, id)
                case Some(row) => Entry(types, row)
                case None => recipes[id])
    decreases |rows|
  {
    if |rows| == 0 then recipes
    else
      var row := rows[|rows| - 1];
      var before := LoadRecipeDesc(types, recipes, rows[..|rows| - 1]);
      var buildingName := Get(types, row.buildingType);
      if !TruthyText(buildingName) then before
      else before[row.id := Recipe(buildingName.value, Decimal.Show(row.tier), row.actionsRequired)]
  }

  /**
   * Loading at start-up: building names first, then the recipes joined
   * with them. Every building id takes the name of its last row; a recipe
   * takes the entry of its last row whose building then has a name; ids
   * that no row mentions keep what they had.
   */
  function Load(st: State, buildingRows: seq<BuildingDesc>, recipeRows: seq<RecipeDesc>): (r: State)
    ensures forall i :: LastOfItsId(buildingRows, i) ==>
      buildingRows[i].id in r.buildingTypes && r.buildingTypes[buildingRows[i].id] == buildingRows[i].name
    ensures forall id :: id in st.buildingTypes && (forall i :: 0 <= i < |buildingRows| ==> buildingRows[i].id != id) ==>
      id in r.buildingTypes && r.buildingTypes[id] == st.buildingTypes[id]
    ensures forall i :: LastKnownOfItsId(r.buildingTypes, recipeRows, i) ==>
      recipeRows[i].id in r.craftingRecipes && r.craftingRecipes[recipeRows[i].id] == Entry(r.buildingTypes, recipeRows[i])
    ensures forall id :: id in r.buildingTypes ==>
      id in st.buildingTypes || exists i :: 0 <= i < |buildingRows| && buildingRows[i].id == id
    ensures forall id :: id in r.craftingRecipes && id !in st.craftingRecipes ==>
      exists i :: LastKnownOfItsId(r.buildingTypes, recipeRows, i) && recipeRows[i].id == id
    ensures forall id :: id in st.craftingRecipes
                         && (forall i :: LastKnownOfItsId(r.buildingTypes, recipeRows, i) ==> recipeRows[i].id != id) ==>
      id in r.craftingRecipes && r.craftingRecipes[id] == st.craftingRecipes[id]
    ensures r == st.(buildingTypes := r.buildingTypes, craftingRecipes := r.craftingRecipes)
  {
    var types := LoadBuildingDesc(st.buildingTypes, buildingRows);
    LastBuildingsAt(buildingRows);
    LastKnownRecipesAt(types, recipeRows);
    st.(buildingTypes := types, craftingRecipes := LoadRecipeDesc(types, st.craftingRecipes, recipeRows))
  }

  /** The last row with an id is the one `LastBuilding` finds. */
  lemma {:induction false} LastBuildingAt(rows: seq<BuildingDesc>, i: int)
    requires LastOfItsId(rows, i)
    ensures LastBuilding(rows, rows[i].id) == Some(rows[i])
    decreases |rows|
  {
    if i < |rows| - 1 {
      var before := rows[..|rows| - 1];
      assert LastOfItsId(before, i);
      LastBuildingAt(before, i);
    }
  }

  lemma LastBuildingsAt(rows: seq<BuildingDesc>)
    ensures forall i :: LastOfItsId(rows, i) ==> LastBuilding(rows, rows[i].id) == Some(rows[i])
  {
    forall i | LastOfItsId(rows, i)
      ensures LastBuilding(rows, rows[i].id) == Some(rows[i])
    {
      LastBuildingAt(rows, i);
    }
  }

  /** The last row with an id and a known building is the one `LastKnownRecipe` finds. */
  lemma {:induction false} LastKnownRecipeAt(types: map<int, string>, rows: seq<RecipeDesc>, i: int)
    requires LastKnownOfItsId(types, rows, i)
    ensures LastKnownRecipe(types, rows, rows[i].id) == Some(rows[i])
    decreases |rows|
  {
    if i < |rows| - 1 {
      var before := rows[..|rows| - 1];
      assert LastKnownOfItsId(types, before, i);
      LastKnownRecipeAt(types, before, i);
    }
  }

  lemma LastKnownRecipesAt(types: map<int, string>, rows: seq<RecipeDesc>)
    ensures forall i :: LastKnownOfItsId(types, rows, i) ==> LastKnownRecipe(types, rows, rows[i].id) == Some(rows[i])
  {
    forall i | LastKnownOfItsId(types, rows, i)
      ensures LastKnownRecipe(types, rows, rows[i].id) == Some(rows[i])
    {
      LastKnownRecipeAt(types, rows, i);
    }
  }

  /**
   * At start-up, with both tables empty, a loaded recipe's station is the
   * name that the last building row of its building type gives.
   */
  lemma LoadedStationIsLastName(st: State, buildingRows: seq<BuildingDesc>, recipeRows: seq<RecipeDesc>, id: int)
    requires st.buildingTypes == map[] && st.craftingRecipes == map[]
    requires id in Load(st, buildingRows, recipeRows).craftingRecipes
    ensures var r := Load(st, buildingRows, recipeRows);
      exists i, k :: (&& LastKnownOfItsId(r.buildingTypes, recipeRows, i) && recipeRows[i].id == id
                      && LastOfItsId(buildingRows, k) && buildingRows[k].id == recipeRows[i].buildingType
                      && r.craftingRecipes[id].station == buildingRows[k].name)
  {
    var r := Load(st, buildingRows, recipeRows);
    var i :| LastKnownOfItsId(r.buildingTypes, recipeRows, i) && recipeRows[i].id == id;
    var bt := recipeRows[i].buildingType;
    assert bt in LoadBuildingDesc(map[], buildingRows);
    var b := LastBuilding(buildingRows, bt).value;
    var k :| LastOfItsId(buildingRows, k) && buildingRows[k] == b;
    assert r.craftingRecipes[id].station == buildingRows[k].name;
  }

  /** Every recipe loaded from an empty table was crafted in a named building and keeps its tier. */
  lemma {:induction false} LoadedRecipesAreKnown(types: map<int, string>, rows: seq<RecipeDesc>, id: int)
    requires id in LoadRecipeDesc(types, map[], rows)
    ensures exists row :: (row in rows && row.id == id && Known(types, row)
                           && LoadRecipeDesc(types, map[], rows)[id] == Entry(types, row))
  {
    var row := LastKnownRecipe(types, rows, id).value;
    assert row in rows && row.id == id && Known(types, row);
  }

  /** Loading one more row: it is stored when its building is known, and skipped otherwise. */
  lemma LoadOneMore(types: map<int, string>, recipes: map<int, Recipe>, rows: seq<RecipeDesc>, row: RecipeDesc)
    ensures LoadRecipeDesc(types, recipes, rows + [row])
         == if Known(types, row) then LoadRecipeDesc(types, recipes, rows)[row.id := Entry(types, row)]
            else LoadRecipeDesc(types, recipes, rows)
  {
    assert (rows + [row])[..|rows|] == rows;
  }

  /** A recipe whose building type has no name is never loaded, whatever its position in the list. */
  lemma {:induction false} UnknownBuildingIsSkipped(types: map<int, string>, recipes: map<int, Recipe>,
                                                    a: seq<RecipeDesc>, row: RecipeDesc, b: seq<RecipeDesc>)
    requires !Known(types, row)
    ensures LoadRecipeDesc(types, recipes, a + [row] + b) == LoadRecipeDesc(types, recipes, a + b)
    decreases |b|
  {
    if |b| == 0 {
      assert a + [row] + b == a + [row] && a + b == a;
      LoadOneMore(types, recipes, a, row);
    } else {
      var init := b[..|b| - 1];
      var last := b[|b| - 1];
      UnknownBuildingIsSkipped(types, recipes, a, row, init);
      assert a + [row] + b == (a + [row] + init) + [last];
      assert a + b == (a + init) + [last];
      LoadOneMore(types, recipes, a + [row] + init, last);
      LoadOneMore(types, recipes, a + init, last);
    }
  }
}

=== FILE: resource_state_sub.dfy ===
/** Row events of `resource_state`: resource entities and their types. */
module ResourceStateSub {
  import opened Maps
  import opened Tracker
  import Timeout

  /** The fields of a `resource_state` row the handlers read. */
  datatype ResourceState = ResourceState(entityId: EntityId, resourceId: int)

  /**
   * Queues the resource type for the entity. It arms no flush: the entity's
   * location event does that.
   */
  function ResourceStateInsert(st: State, row: ResourceState): (r: State)
    ensures Overwrites(st.resourceQueue, r.resourceQueue, row.entityId, row.resourceId)
    ensures r == st.(resourceQueue := r.resourceQueue)
  {
    st.(resourceQueue := st.resourceQueue[row.entityId := row.resourceId])
  }

  /**
   * Drops the entity from the queue and from the locations of its resource
   * type. The type keeps its entry, possibly empty; a type without an entry
   * is left alone.
   */
  function ResourceStateDelete(st: State, row: ResourceState): (r: State)
    ensures Erases(st.resourceQueue, r.resourceQueue, row.entityId)
    ensures r.resourceLocations.Keys == st.resourceLocations.Keys
    ensures row.resourceId in st.resourceLocations ==>
      Erases(st.resourceLocations[row.resourceId], r.resourceLocations[row.resourceId], row.entityId)
    ensures forall res :: res in st.resourceLocations && res != row.resourceId ==>
      r.resourceLocations[res] == st.resourceLocations[res]
    ensures r == st.(resourceQueue := r.resourceQueue, resourceLocations := r.resourceLocations)
  {
    var locations :=
      if row.resourceId in st.resourceLocations then
        st.resourceLocations[row.resourceId := st.resourceLocations[row.resourceId] - {row.entityId}]
      else st.resourceLocations;
    st.(resourceQueue := st.resourceQueue - {row.entityId}, resourceLocations := locations)
  }

  /** Deleting a resource after its location was recorded removes that record again. */
  lemma DeleteAfterFlush(st: State, row: ResourceState)
    requires Timeout.RecordsResource(st, row.entityId)
    requires st.resourceQueue[row.entityId] == row.resourceId
    ensures var r := ResourceStateDelete(Timeout.Flush(st, row.entityId), row);
      && row.resourceId in r.resourceLocations
      && row.entityId !in r.resourceLocations[row.resourceId]
      && r.resourceLocations[row.resourceId] == Timeout.Located(st.resourceLocations, row.resourceId) - {row.entityId}
  {
    var flushed := Timeout.Flush(st, row.entityId);
    var before := Timeout.Located(st.resourceLocations, row.resourceId);
    assert flushed.resourceLocations[row.resourceId] - {row.entityId} == before - {row.entityId};
  }
}

=== FILE: sdk.dfy ===
/** The kinds of event an `EventContext` carries (the `Event` union of the SDK). */
module SdkEvent {
  datatype Event =
    | Reducer
    | SubscribeApplied
    | UnsubscribeApplied
    | Error
    | UnknownTransaction
}

/**
 * The documented lifecycle of a `SubscriptionHandleImpl`: it is pending
 * until the server applies the query, active until it ends, and ended
 * after an error or a completed unsubscribe. Only the lifecycle is
 * modelled; the messages themselves are abstract.
 */
module SubscriptionHandle {
  datatype Phase = Pending | Active | Ended

  /**
   * `unsubscribing` records that `unsubscribe` or `unsubscribeThen` was
   * called (the handle is consumed by it); `onEnd` that an `on_end`
   * callback was registered by `unsubscribeThen`.
   */
  datatype Handle = Handle(phase: Phase, unsubscribing: bool, onEnd: bool)

  /** What reaches a handle: a server reply, or a call by the program. */
  datatype Input =
    | Applied
    | SubscriptionError
    | UnsubscribeApplied
    | Unsubscribe(withOnEnd: bool)

  /** The callbacks a step invokes. */
  datatype Callback = OnApplied | OnError | OnEnd

  /** A handle fresh from `subscribe`: neither active nor ended. */
  function New(): (h: Handle)
    ensures !IsActive(h) && !IsEnded(h)
  {
    Handle(Pending, false, false)
  }

  predicate IsActive(h: Handle) {
    h.phase == Active
  }

  predicate IsEnded(h: Handle) {
    h.phase == Ended
  }

  /** An input ends the subscription. */
  predicate Terminal(i: Input) {
    i == SubscriptionError || i == UnsubscribeApplied
  }

  /**
   * When an input may happen. Unsubscribing is valid only while active
   * and consumes the handle; the server applies a query once, reports an
   * error only before the end, and confirms an unsubscribe only after one
   * was requested.
   */
  predicate Allowed(h: Handle, i: Input) {
    match i
    case Applied => h.phase == Pending
    case SubscriptionError => h.phase != Ended
    case UnsubscribeApplied => h.phase == Active && h.unsubscribing
    case Unsubscribe(_) => h.phase == Active && !h.unsubscribing
  }

  /** One input: the next handle and the callbacks it invokes, in order. */
  function Step(h: Handle, i: Input): (r: (Handle, seq<Callback>))
    requires Allowed(h, i)
    ensures IsEnded(r.0) <==> Terminal(i)
    ensures IsActive(r.0) <==> (IsActive(h) || i == Applied) && !Terminal(i)
    ensures OnEnd in r.1 <==> i == UnsubscribeApplied && h.onEnd
    ensures OnError in r.1 <==> i == SubscriptionError
    ensures OnApplied in r.1 <==> i == Applied
    ensures |r.1| <= 1
    ensures i.Unsubscribe? ==> r.0.unsubscribing && r.0.onEnd == i.withOnEnd
    ensures !i.Unsubscribe? ==> r.0.unsubscribing == h.unsubscribing && r.0.onEnd == h.onEnd
  {
    match i
    case Applied => (h.(phase := Active), [OnApplied])
    case SubscriptionError => (h.(phase := Ended), [OnError])
    case UnsubscribeApplied => (h.(phase := Ended), if h.onEnd then [OnEnd] else [])
    case Unsubscribe(withOnEnd) => (h.(unsubscribing := true, onEnd := withOnEnd), [])
  }

  /**
   * Unsubscribing from an active handle: once the server confirms it, the
   * callback given to `unsubscribeThen` runs, and a plain `unsubscribe`
   * runs none.
   */
  lemma ThenEnds(h: Handle)
    requires IsActive(h) && !h.unsubscribing
    ensures Legal(h, [Unsubscribe(true), UnsubscribeApplied])
    ensures Fired(h, [Unsubscribe(true), UnsubscribeApplied]) == [OnEnd]
    ensures Legal(h, [Unsubscribe(false), UnsubscribeApplied])
    ensures Fired(h, [Unsubscribe(false), UnsubscribeApplied]) == []
  {
    assert [Unsubscribe(true), UnsubscribeApplied][1..] == [UnsubscribeApplied];
    assert [Unsubscribe(false), UnsubscribeApplied][1..] == [UnsubscribeApplied];
    assert [UnsubscribeApplied][1..] == [];
  }

  /** Every input of `t` is allowed when it happens, starting from `h`. */
  predicate Legal(h: Handle, t: seq<Input>)
    decreases |t|
  {
    |t| == 0 || (Allowed(h, t[0]) && Legal(Step(h, t[0]).0, t[1..]))
  }

  function Run(h: Handle, t: seq<Input>): Handle
    requires Legal(h, t)
    decreases |t|
  {
    if |t| == 0 then h else Run(Step(h, t[0]).0, t[1..])
  }

  /** The callbacks invoked along `t`, in order. */
  function Fired(h: Handle, t: seq<Input>): seq<Callback>
    requires Legal(h, t)
    decreases |t|
  {
    if |t| == 0 then [] else Step(h, t[0]).1 + Fired(Step(h, t[0]).0, t[1..])
  }

  /** The subscription ended somewhere along `t`. */
  predicate EndsIn(t: seq<Input>) {
    SubscriptionError in t || UnsubscribeApplied in t
  }

  /**
   * Along any legal sequence of inputs: the handle is ended exactly when
   * an error or an unsubscribe confirmation happened; it is active exactly
   * when it was applied and has not ended since; and at most one of
   * `on_end` and `on_error` is invoked, once, and only if the handle had
   * not ended before.
   */
  lemma {:induction false} Lifecycle(h: Handle, t: seq<Input>)
    requires Legal(h, t)
    ensures IsEnded(Run(h, t)) <==> IsEnded(h) || EndsIn(t)
    ensures IsActive(Run(h, t)) <==> !IsEnded(h) && (IsActive(h) || Applied in t) && !EndsIn(t)
    ensures multiset(Fired(h, t))[OnEnd] + multiset(Fired(h, t))[OnError] <= if IsEnded(h) then 0 else 1
    ensures IsEnded(h) ==> t == []
  {
    EndedIsFinal(h, t);
    EndedExactly(h, t);
    ActiveExactly(h, t);
    EndsOnce(h, t);
  }

  /** No input is allowed once the handle has ended. */
  lemma EndedIsFinal(h: Handle, t: seq<Input>)
    requires Legal(h, t)
    ensures IsEnded(h) ==> t == []
  {}

  /** Membership in a non-empty sequence: its head or its tail. */
  lemma InHeadOrTail(t: seq<Input>, i: Input)
    requires |t| > 0
    ensures i in t <==> i == t[0] || i in t[1..]
  {
    assert t == [t[0]] + t[1..];
  }

  lemma {:induction false} EndedExactly(h: Handle, t: seq<Input>)
    requires Legal(h, t)
    ensures IsEnded(Run(h, t)) <==> IsEnded(h) || EndsIn(t)
    decreases |t|
  {
    if |t| > 0 {
      EndedExactly(Step(h, t[0]).0, t[1..]);
      InHeadOrTail(t, SubscriptionError);
      InHeadOrTail(t, UnsubscribeApplied);
      EndedIsFinal(Step(h, t[0]).0, t[1..]);
    }
  }

  lemma {:induction false} ActiveExactly(h: Handle, t: seq<Input>)
    requires Legal(h, t)
    ensures IsActive(Run(h, t)) <==> !IsEnded(h) && (IsActive(h) || Applied in t) && !EndsIn(t)
    decreases |t|
  {
    if |t| > 0 {
      ActiveExactly(Step(h, t[0]).0, t[1..]);
      InHeadOrTail(t, SubscriptionError);
      InHeadOrTail(t, UnsubscribeApplied);
      InHeadOrTail(t, Applied);
      EndedIsFinal(Step(h, t[0]).0, t[1..]);
    }
  }

  lemma {:induction false} EndsOnce(h: Handle, t: seq<Input>)
    requires Legal(h, t)
    ensures multiset(Fired(h, t))[OnEnd] + multiset(Fired(h, t))[OnError] <= if IsEnded(h) then 0 else 1
    decreases |t|
  {
    if |t| > 0 {
      var (h1, cs) := Step(h, t[0]);
      EndsOnce(h1, t[1..]);
      assert multiset(Fired(h, t)) == multiset(cs) + multiset(Fired(h1, t[1..]));
    }
  }

  /** A fresh handle: active exactly between `on_applied` and the end; ended exactly after it. */
  lemma FromNew(t: seq<Input>)
    requires Legal(New(), t)
    ensures IsActive(Run(New(), t)) <==> Applied in t && !EndsIn(t)
    ensures IsEnded(Run(New(), t)) <==> EndsIn(t)
    ensures multiset(Fired(New(), t))[OnEnd] + multiset(Fired(New(), t))[OnError] <= 1
  {
    Lifecycle(New(), t);
  }

  /** `on_end` is not invoked when `on_error` fires, whatever the order. */
  lemma NoEndAfterError(h: Handle, t: seq<Input>)
    requires Legal(h, t)
    requires OnError in Fired(h, t)
    ensures OnEnd !in Fired(h, t)
  {
    Lifecycle(h, t);
    assert multiset(Fired(h, t))[OnError] >= 1;
  }
}

/**
 * The connection-level rules: a connection subscribes either to queries or
 * to all tables, never both, and its builder accepts one `onDisconnect`.
 */
module Connection {
  import opened Wrappers

  /** Which kind of subscription a connection has used so far. */
  datatype Mode = Unused | Queries | AllTables

  datatype Call = Subscribe | SubscribeToAllTables

  /** The kind a call commits the connection to. */
  function ModeOf(c: Call): (m: Mode)
    ensures m != Unused
  {
    match c
    case Subscribe => Queries
    case SubscribeToAllTables => AllTables
  }

  /** A call is allowed unless the connection already used the other kind. */
  predicate CanCall(m: Mode, c: Call) {
    m == Unused || m == ModeOf(c)
  }

  /** The mode after an allowed call: committed to the call's kind, and unchanged once used. */
  function After(m: Mode, c: Call): (r: Mode)
    requires CanCall(m, c)
    ensures r == Queries <==> c == Subscribe
    ensures r == AllTables <==> c == SubscribeToAllTables
    ensures m != Unused ==> r == m
  {
    ModeOf(c)
  }

  /** Every call of `cs`, made in order from mode `m`, meets the rule. */
  predicate LegalCalls(m: Mode, cs: seq<Call>)
    decreases |cs|
  {
    |cs| == 0 || (CanCall(m, cs[0]) && LegalCalls(After(m, cs[0]), cs[1..]))
  }

  /** The calls a fresh connection may make are exactly those all of one kind. */
  lemma {:induction false} OneKind(cs: seq<Call>)
    ensures LegalCalls(Unused, cs) <==> forall i :: 0 <= i < |cs| ==> cs[i] == cs[0]
  {
    if |cs| > 0 {
      SameKind(ModeOf(cs[0]), cs[1..]);
      assert forall i :: 0 < i < |cs| ==> cs[i] == cs[1..][i - 1];
    }
  }

  /** From a used mode, the calls allowed are exactly those of that mode's kind. */
  lemma {:induction false} SameKind(m: Mode, cs: seq<Call>)
    requires m != Unused
    ensures LegalCalls(m, cs) <==> forall i :: 0 <= i < |cs| ==> ModeOf(cs[i]) == m
    decreases |cs|
  {
    if |cs| > 0 {
      SameKind(m, cs[1..]);
      assert forall i :: 0 < i < |cs| ==> cs[i] == cs[1..][i - 1];
    }
  }

  datatype BuilderError = DisconnectCallbackAlreadySet

  /** A `DbConnectionBuilder`, reduced to its disconnect callback (an opaque id). */
  datatype Builder = Builder(onDisconnect: Option<nat>)

  /** Registers the disconnect callback; a second registration throws. */
  function OnDisconnect(b: Builder, callback: nat): (r: Result<Builder, BuilderError>)
    ensures r.Success? <==> b.onDisconnect.None?
    ensures r.Success? ==> r.value.onDisconnect == Some(callback)
  {
    if b.onDisconnect.Some? then Failure(DisconnectCallbackAlreadySet)
    else Success(Builder(Some(callback)))
  }

  /** Whatever the callbacks, registering twice on one builder fails. */
  lemma RegisterTwice(b: Builder, first: nat, second: nat)
    requires OnDisconnect(b, first).Success?
    ensures OnDisconnect(OnDisconnect(b, first).value, second) == Failure(DisconnectCallbackAlreadySet)
  {}
}

=== FILE: session.dfy ===
/**
 * The tracker as a whole: every row event the handlers react to, and the
 * firing of an armed flush, as steps on one state. Along any sequence of
 * steps every pending entity keeps exactly one armed flush.
 */
module Session {
  import opened Wrappers
  import opened Packing
  import opened Tracker
  import opened SdkEvent
  import opened BuildingStateSub
  import opened ClaimStateSub
  import opened EmpirePlayerDataStateSub
  import opened EmpireStateSub
  import opened PlayerUsernameStateSub
  import opened ResourceStateSub
  import opened LocationStateSub
  import opened ProgressiveActionStateSub
  import Timeout
  import Webhook

  datatype Step =
    | BuildingInserted(building: BuildingState)
    | BuildingDeleted(building: BuildingState)
    | ClaimInserted(claim: ClaimState)
    | ClaimDeleted(claim: ClaimState)
    | EmpirePlayerDataInserted(membership: EmpirePlayerDataState)
    | EmpirePlayerDataDeleted(membership: EmpirePlayerDataState)
    | EmpireInserted(empire: EmpireState)
    | EmpireDeleted(empire: EmpireState)
    | EmpireUpdated(oldEmpire: Option<EmpireState>, newEmpire: EmpireState)
    | PlayerUsernameInserted(player: PlayerUsernameState)
    | PlayerUsernameDeleted(player: PlayerUsernameState)
    | PlayerUsernameUpdated(oldPlayer: Option<PlayerUsernameState>, newPlayer: PlayerUsernameState)
    | ResourceInserted(resource: ResourceState)
    | ResourceDeleted(resource: ResourceState)
    | LocationInserted(location: LocationState)
    | LocationDeleted(location: LocationState)
    | LocationUpdated(oldLocation: Option<LocationState>, newLocation: LocationState)
    | CraftStarted(event: Event, craft: ProgressiveActionState)
    | TimerFired

  /** A timer can only fire when one is armed. */
  predicate Enabled(st: State, step: Step) {
    step.TimerFired? ==> |st.timers| > 0
  }

  /**
   * The state after a step, and the message it sends, if any. An update of
   * a location row reaches no handler: only inserts and deletes of
   * `location_state` are registered.
   */
  function Apply(st: State, step: Step): (r: (State, Option<Webhook.Message>))
    requires Enabled(st, step)
    ensures Wf(st) ==> Wf(r.0)
    ensures r.1.Some? ==> step.CraftStarted? && r.1.value.Craft?
    ensures step.CraftStarted? ==>
      r.0 == st && (r.1.Some? <==> IsBigCraft(st, step.event, step.craft))
    ensures step.LocationUpdated? ==> r == (st, None)
    ensures !step.LocationInserted? && !step.TimerFired? ==>
      r.0.timers == st.timers && r.0.timeoutQueue == st.timeoutQueue
  {
    match step
    case BuildingInserted(b) => (BuildingStateInsert(st, b), None)
    case BuildingDeleted(b) => (BuildingStateDelete(st, b), None)
    case ClaimInserted(c) => (ClaimStateInsert(st, c), None)
    case ClaimDeleted(c) => (ClaimStateDelete(st, c), None)
    case EmpirePlayerDataInserted(m) => (EmpirePlayerDataStateInsert(st, m), None)
    case EmpirePlayerDataDeleted(m) => (EmpirePlayerDataStateDelete(st, m), None)
    case EmpireInserted(e) => (EmpireStateInsert(st, e), None)
    case EmpireDeleted(e) => (EmpireStateDelete(st, e), None)
    case EmpireUpdated(o, e) => (EmpireStateUpdate(st, o, e), None)
    case PlayerUsernameInserted(p) => (PlayerUsernameStateInsert(st, p), None)
    case PlayerUsernameDeleted(p) => (PlayerUsernameStateDelete(st, p), None)
    case PlayerUsernameUpdated(o, p) => (PlayerUsernameStateUpdate(st, o, p), None)
    case ResourceInserted(res) => (ResourceStateInsert(st, res), None)
    case ResourceDeleted(res) => (ResourceStateDelete(st, res), None)
    case LocationInserted(l) => (LocationStateInsert(st, l), None)
    case LocationDeleted(l) => (LocationStateDelete(st, l), None)
    case LocationUpdated(_, _) => (st, None)
    case CraftStarted(event, craft) =>
      var info := ProgressiveActionStateInsert(st, event, craft);
      (st, if info.Some? then Some(Webhook.Craft(info.value)) else None)
    case TimerFired => (Timeout.Fire(st), None)
  }

  /** Every step of `steps` is enabled when it happens, starting from `st`. */
  predicate Feasible(st: State, steps: seq<Step>)
    decreases |steps|
  {
    |steps| == 0 || (Enabled(st, steps[0]) && Feasible(Apply(st, steps[0]).0, steps[1..]))
  }

  /** The state after `steps` and the messages they send, in order. */
  function Run(st: State, steps: seq<Step>): (r: (State, seq<Webhook.Message>))
    requires Feasible(st, steps)
    ensures |r.1| <= |steps|
    ensures (forall i :: 0 <= i < |steps| ==> !steps[i].CraftStarted?) ==> r.1 == []
    decreases |steps|
  {
    if |steps| == 0 then (st, [])
    else
      var (st1, sent) := Apply(st, steps[0]);
      var (st2, rest) := Run(st1, steps[1..]);
      (st2, (if sent.Some? then [sent.value] else []) + rest)
  }

  /** From the initial state, any feasible run keeps one armed flush per pending entity. */
  lemma {:induction false} RunKeepsWf(st: State, steps: seq<Step>)
    requires Wf(st) && Feasible(st, steps)
    ensures Wf(Run(st, steps).0)
    decreases |steps|
  {
    if |steps| > 0 {
      RunKeepsWf(Apply(st, steps[0]).0, steps[1..]);
    }
  }

  /** Every message a run sends is a craft notification, posted to the big-craft webhook only. */
  lemma {:induction false} RunSendsOnlyCrafts(st: State, steps: seq<Step>)
    requires Feasible(st, steps)
    ensures forall m :: m in Run(st, steps).1 ==> m.Craft? && Webhook.Hooks(m) == [Webhook.BigCraftHook]
    decreases |steps|
  {
    if |steps| > 0 {
      RunSendsOnlyCrafts(Apply(st, steps[0]).0, steps[1..]);
    }
  }

  /** In a well-formed state every pending entity has a timer that will fire. */
  lemma PendingWillFire(st: State, id: EntityId)
    requires Wf(st) && id in st.timeoutQueue
    ensures id in st.timers
  {
    assert multiset(st.timers)[id] == 1;
  }

  /**
   * A resource entity, then its location, then the flush with nothing else
   * armed: the resource is recorded at the packed location, which unpacks
   * to the row's coordinates, and all queues are drained for it.
   */
  lemma ResourceThenLocation(st: State, res: ResourceState, loc: LocationState)
    requires st.timers == [] && st.timeoutQueue == {}
    requires res.entityId == loc.entityId && res.resourceId != 0
    requires -0x1_0000 <= loc.x < 0x1_0000 && 0 <= loc.z < 0x8000
    requires loc.x != 0 || loc.z != 0
    ensures var r := Timeout.Fire(LocationStateInsert(ResourceStateInsert(st, res), loc));
      && res.resourceId in r.resourceLocations
      && res.entityId in r.resourceLocations[res.resourceId]
      && r.resourceLocations[res.resourceId][res.entityId] == Pack(loc.x, loc.z)
      && Unpack(r.resourceLocations[res.resourceId][res.entityId]) == (loc.x, loc.z)
      && res.entityId !in r.resourceQueue && res.entityId !in r.locationQueue
      && r.timeoutQueue == {} && r.timers == []
  {
    var id := res.entityId;
    RoundTrip(loc.x, loc.z);
    var s2 := LocationStateInsert(ResourceStateInsert(st, res), loc);
    assert s2.timers == [id];
    var s3 := s2.(timers := []);
    assert s3.resourceQueue[id] == res.resourceId && s3.locationQueue[id] == Pack(loc.x, loc.z);
    assert Timeout.RecordsResource(s3, id);
    var r := Timeout.Fire(s2);
    assert r == Timeout.Flush(s3, id);
    assert r.resourceLocations == Timeout.ResourcesAfterFlush(s3, id);
  }

  /**
   * An entity at the origin is never recorded: its packed location is 0,
   * which the flush treats as no location.
   */
  lemma OriginIsNeverRecorded(st: State, loc: LocationState)
    requires loc.x == 0 && loc.z == 0
    ensures var s := LocationStateInsert(st, loc);
      && Timeout.Flush(s, loc.entityId).waystoneLocations == s.waystoneLocations
      && Timeout.Flush(s, loc.entityId).resourceLocations == s.resourceLocations
  {
  }

  /**
   * A waystone that moves: the server replaces its location row, which the
   * client receives as one update. With no update handler registered the
   * new location is never queued and no flush is armed, so the waystone
   * stays recorded where it was.
   */
  lemma MovedWaystoneIsNotTracked(st: State, previous: Option<LocationState>, moved: LocationState)
    requires moved.entityId in st.waystoneLocations
    requires moved.entityId !in st.timeoutQueue
    ensures var r := Apply(st, LocationUpdated(previous, moved)).0;
      && r.waystoneLocations[moved.entityId] == st.waystoneLocations[moved.entityId]
      && moved.entityId !in r.timeoutQueue
      && r.locationQueue == st.locationQueue
  {}

  /** `Apply` with `LocationStateUpdate` registered for location updates, as the flush's comment expects. */
  function ApplyWithLocationUpdates(st: State, step: Step): (r: (State, Option<Webhook.Message>))
    requires Enabled(st, step)
    ensures Wf(st) ==> Wf(r.0)
    ensures step.LocationUpdated? ==> r == (LocationStateInsert(st, step.newLocation), None)
    ensures !step.LocationUpdated? ==> r == Apply(st, step)
  {
    match step
    case LocationUpdated(o, l) => (LocationStateUpdate(st, o, l), None)
    case _ => Apply(st, step)
  }

  /**
   * With the update handler registered, a waystone that moves is recorded
   * at its new location once the flush armed by the update fires.
   */
  lemma MovedWaystoneIsTracked(st: State, previous: Option<LocationState>, moved: LocationState)
    requires Wf(st) && st.timers == []
    requires moved.entityId in st.buildings
    requires st.buildings[moved.entityId] in st.claimsWithWaystones
    requires st.claimsWithWaystones[st.buildings[moved.entityId]] != ""
    requires -0x1_0000 <= moved.x < 0x1_0000 && 0 <= moved.z < 0x8000
    requires moved.x != 0 || moved.z != 0
    ensures var s := ApplyWithLocationUpdates(st, LocationUpdated(previous, moved)).0;
      && s.timers == [moved.entityId]
      && moved.entityId in Timeout.Fire(s).waystoneLocations
      && Timeout.Fire(s).waystoneLocations[moved.entityId]
         == Waystone(st.buildings[moved.entityId], Pack(moved.x, moved.z))
  {
    var id := moved.entityId;
    var s := ApplyWithLocationUpdates(st, LocationUpdated(previous, moved)).0;
    assert id !in st.timeoutQueue by {
      assert multiset(st.timers)[id] == 0;
    }
    assert s.timers == [id];
    assert Timeout.RecordsWaystone(s, id);
  }
}

=== FILE: template.dfy ===
/**
 * `format(string, values)`: one left-to-right pass of
 * `string.replace(/{(\w+)}/g, ...)` that replaces each `{key}` whose key is
 * in `values` by its value and leaves the others as they were.
 *
 * The values are taken as already converted to text.
 */
module Template {
  import opened Wrappers

  /** `\w`: an ASCII letter, digit or underscore. */
  predicate IsWordChar(c: char) {
    'a' <= c <= 'z' || 'A' <= c <= 'Z' || '0' <= c <= '9' || c == '_'
  }

  /** A key the pattern can capture: one or more word characters. */
  predicate IsKey(k: string) {
    |k| >= 1 && forall i :: 0 <= i < |k| ==> IsWordChar(k[i])
  }

  /** The placeholder text `{k}`. */
  function Placeholder(k: string): string {
    "{" + k + "}"
  }

  /** `s` starts with a placeholder whose key has `n` characters. */
  predicate PlaceholderOfLength(s: string, n: int) {
    && 1 <= n && n + 1 < |s|
    && s[0] == '{' && s[n + 1] == '}'
    && forall i :: 1 <= i <= n ==> IsWordChar(s[i])
  }

  /** The length of the longest prefix of `s` made of word characters. */
  function WordRun(s: string): (n: nat)
    ensures n <= |s|
    ensures forall i :: 0 <= i < n ==> IsWordChar(s[i])
    ensures n < |s| ==> !IsWordChar(s[n])
  {
    if |s| == 0 || !IsWordChar(s[0]) then 0 else 1 + WordRun(s[1..])
  }

  /**
   * The key of the placeholder `s` starts with, if it starts with one. A
   * closing brace is not a word character, so there is at most one.
   */
  function PlaceholderAt(s: string): (r: Option<string>)
    ensures r.Some? ==> PlaceholderOfLength(s, |r.value|) && r.value == s[1..|r.value| + 1]
    ensures r.None? ==> forall n :: !PlaceholderOfLength(s, n)
  {
    if |s| == 0 || s[0] != '{' then None
    else
      var n := WordRun(s[1..]);
      if n >= 1 && n + 1 < |s| && s[n + 1] == '}' then Some(s[1..n + 1])
      else None
  }

  /** `format(s, values)`. */
  function Format(s: string, values: map<string, string>): (r: string)
    ensures values == map[] ==> r == s
    decreases |s|
  {
    if |s| == 0 then ""
    else
      match PlaceholderAt(s)
      case Some(k) =>
        assert s == Placeholder(k) + s[|k| + 2..] by {
          assert s[..|k| + 2] == Placeholder(k);
          assert s == s[..|k| + 2] + s[|k| + 2..];
        }
        (if k in values then values[k] else Placeholder(k)) + Format(s[|k| + 2..], values)
      case None =>
        [s[0]] + Format(s[1..], values)
  }

  /** Template pieces: literal text, or a placeholder for a key. */
  datatype Piece = Text(text: string) | Hole(key: string)

  /** The template text the pieces spell. */
  function Render(ps: seq<Piece>): string {
    if |ps| == 0 then ""
    else
      match ps[0]
      case Text(t) => t + Render(ps[1..])
      case Hole(k) => Placeholder(k) + Render(ps[1..])
  }

  /** What substituting into the pieces means, independently of any scanning. */
  function Expand(ps: seq<Piece>, values: map<string, string>): string {
    if |ps| == 0 then ""
    else
      match ps[0]
      case Text(t) => t + Expand(ps[1..], values)
      case Hole(k) => (if k in values then values[k] else Placeholder(k)) + Expand(ps[1..], values)
  }

  /**
   * Literal text in which every `{` is followed by a non-word character, so
   * no placeholder starts in it. This is sufficient, not necessary: `{ab `
   * has no match and is not inert.
   */
  predicate Inert(t: string) {
    forall i :: 0 <= i < |t| && t[i] == '{' ==> i + 1 < |t| && !IsWordChar(t[i + 1])
  }

  predicate WellFormed(ps: seq<Piece>) {
    forall i :: 0 <= i < |ps| ==>
      match ps[i]
      case Text(t) => Inert(t)
      case Hole(k) => IsKey(k)
  }

  /**
   * Formatting the text of well-formed pieces substitutes exactly their
   * holes, in one pass: values are inserted as they are, never scanned again.
   */
  lemma {:induction false} FormatRender(ps: seq<Piece>, values: map<string, string>)
    requires WellFormed(ps)
    ensures Format(Render(ps), values) == Expand(ps, values)
  {
    if |ps| > 0 {
      assert WellFormed(ps[1..]) by {
        forall i | 0 <= i < |ps| - 1
          ensures match ps[1..][i]
                  case Text(t) => Inert(t)
                  case Hole(k) => IsKey(k)
        {
          assert ps[1..][i] == ps[i + 1];
        }
      }
      FormatRender(ps[1..], values);
      match ps[0]
      case Text(t) =>
        FormatInert(t, Render(ps[1..]), values);
      case Hole(k) =>
        FormatPlaceholder(k, Render(ps[1..]), values);
    }
  }

  /** A placeholder is replaced by its value, or kept when the key is unknown. */
  lemma FormatPlaceholder(k: string, rest: string, values: map<string, string>)
    requires IsKey(k)
    ensures Format(Placeholder(k) + rest, values)
         == (if k in values then values[k] else Placeholder(k)) + Format(rest, values)
  {
    var s := Placeholder(k) + rest;
    assert PlaceholderOfLength(s, |k|) by {
      forall i | 1 <= i <= |k| ensures IsWordChar(s[i]) {
        assert s[i] == k[i - 1];
      }
    }
    var r := PlaceholderAt(s);
    assert |r.value| == |k| by {
      PlaceholderLengthUnique(s, |r.value|, |k|);
    }
    assert r.value == k;
    assert s[|k| + 2..] == rest;
  }

  lemma PlaceholderLengthUnique(s: string, m: int, n: int)
    requires PlaceholderOfLength(s, m) && PlaceholderOfLength(s, n)
    ensures m == n
  {}

  /** No placeholder starts at inert, non-empty text, whatever follows it. */
  lemma NoPlaceholderAtInert(t: string, rest: string)
    requires Inert(t) && |t| > 0
    ensures PlaceholderAt(t + rest).None?
  {
    var s := t + rest;
    if s[0] == '{' {
      assert !IsWordChar(s[1]);
      assert forall n :: !PlaceholderOfLength(s, n);
    }
  }

  /** Inert text stays inert without its first character. */
  lemma InertTail(t: string)
    requires Inert(t) && |t| > 0
    ensures Inert(t[1..])
  {
    forall i | 0 <= i < |t| - 1 && t[1..][i] == '{'
      ensures i + 1 < |t| - 1 && !IsWordChar(t[1..][i + 1])
    {
      assert t[i + 1] == '{';
    }
  }

  /** Where no placeholder starts, `format` keeps the first character and goes on. */
  lemma FormatKeepsFirst(t: string, rest: string, values: map<string, string>)
    requires |t| > 0 && PlaceholderAt(t + rest).None?
    ensures Format(t + rest, values) == [t[0]] + Format(t[1..] + rest, values)
  {
    var s := t + rest;
    assert s[0] == t[0] && s[1..] == t[1..] + rest;
  }

  /** One step of `format` over inert text: its first character is copied. */
  lemma InertStep(t: string, rest: string, values: map<string, string>)
    requires Inert(t) && |t| > 0
    ensures Format(t + rest, values) == [t[0]] + Format(t[1..] + rest, values)
    ensures Inert(t[1..])
  {
    NoPlaceholderAtInert(t, rest);
    FormatKeepsFirst(t, rest, values);
    InertTail(t);
  }

  /** Inert literal text passes through unchanged. */
  lemma {:induction false} FormatInert(t: string, rest: string, values: map<string, string>)
    requires Inert(t)
    ensures Format(t + rest, values) == t + Format(rest, values)
    decreases |t|
  {
    if |t| > 0 {
      InertTail(t);
      FormatInert(t[1..], rest, values);
      InertCons(t, rest, values);
    } else {
      assert t + rest == rest;
    }
  }

  /** The step of `FormatInert`: copying the first character extends the copied text. */
  lemma InertCons(t: string, rest: string, values: map<string, string>)
    requires Inert(t) && |t| > 0
    requires Format(t[1..] + rest, values) == t[1..] + Format(rest, values)
    ensures Format(t + rest, values) == t + Format(rest, values)
  {
    InertStep(t, rest, values);
    PrependFirst(t, Format(rest, values));
  }

  lemma PrependFirst(t: string, u: string)
    requires |t| > 0
    ensures [t[0]] + (t[1..] + u) == t + u
  {
    assert t == [t[0]] + t[1..];
  }

  /** Text without any `{` is inert. */
  lemma NoBraceIsInert(t: string)
    requires '{' !in t
    ensures Inert(t)
  {}

  /** A `{` followed by inert text that starts with a non-word character is inert. */
  lemma BraceThenInert(u: string)
    requires Inert(u) && |u| > 0 && !IsWordChar(u[0])
    ensures Inert("{" + u)
  {
    var t := "{" + u;
    forall i | 0 <= i < |t| && t[i] == '{'
      ensures i + 1 < |t| && !IsWordChar(t[i + 1])
    {
      if i > 0 {
        assert t[i] == u[i - 1];
        assert t[i + 1] == u[i];
      }
    }
  }

  /** Inert texts put together stay inert. */
  lemma InertAppend(a: string, b: string)
    requires Inert(a) && Inert(b)
    ensures Inert(a + b)
  {
    var t := a + b;
    forall i | 0 <= i < |t| && t[i] == '{'
      ensures i + 1 < |t| && !IsWordChar(t[i + 1])
    {
      if i >= |a| {
        assert t[i] == b[i - |a|];
        assert t[i + 1] == b[i + 1 - |a|];
      } else {
        assert t[i] == a[i];
      }
    }
  }

  /** Inert text and then a placeholder: the text is kept, the placeholder substituted. */
  lemma FormatTextThenHole(t: string, k: string, rest: string, values: map<string, string>)
    requires Inert(t) && IsKey(k)
    ensures Format(t + (Placeholder(k) + rest), values)
         == t + ((if k in values then values[k] else Placeholder(k)) + Format(rest, values))
  {
    FormatInert(t, Placeholder(k) + rest, values);
    FormatPlaceholder(k, rest, values);
  }
}

=== FILE: timeout.dfy ===
/**
 * `timeout(id)`: arming a delayed flush for an entity, and the flush itself,
 * which joins the queued location and resource type of the entity with the
 * building and claim maps into `waystoneLocations` and `resourceLocations`.
 *
 * Arming and firing are separate steps: any number of row events may happen
 * in between, and the flush reads the state as it is when it fires.
 */
module Timeout {
  import opened Wrappers
  import opened Packing
  import opened Maps
  import opened Tracker

  /** Arms the flush for `id` unless one is already pending. */
  function Arm(st: State, id: EntityId): (r: State)
    ensures r.timeoutQueue == st.timeoutQueue + {id}
    ensures id in st.timeoutQueue ==> r == st
    ensures id !in st.timeoutQueue ==> r.timers == st.timers + [id]
    ensures r == st.(timeoutQueue := r.timeoutQueue, timers := r.timers)
    ensures Wf(st) ==> Wf(r)
  {
    if id in st.timeoutQueue then st
    else st.(timeoutQueue := st.timeoutQueue + {id}, timers := st.timers + [id])
  }

  /** The flush records a waystone for `id`: a building of a named claim with a non-zero location. */
  predicate RecordsWaystone(st: State, id: EntityId) {
    && id in st.buildings
    && st.buildings[id] in st.claimsWithWaystones
    && st.claimsWithWaystones[st.buildings[id]] != ""
    && id in st.locationQueue && st.locationQueue[id] != 0
  }

  /** The flush records a resource for `id`: a non-zero location and a non-zero resource type. */
  predicate RecordsResource(st: State, id: EntityId) {
    && id in st.locationQueue && st.locationQueue[id] != 0
    && id in st.resourceQueue && st.resourceQueue[id] != 0
  }

  /** The entities of one resource type, empty when the type has no entry. */
  function Located(m: map<int, map<EntityId, Int32>>, res: int): map<EntityId, Int32> {
    if res in m then m[res] else map[]
  }

  /** `waystoneLocations` after the flush of `id` (the `if (bld)` block). */
  function WaystonesAfterFlush(st: State, id: EntityId): (r: map<EntityId, Waystone>)
    ensures RecordsWaystone(st, id) ==>
      Overwrites(st.waystoneLocations, r, id, Waystone(st.buildings[id], st.locationQueue[id]))
    ensures !RecordsWaystone(st, id) ==> r == st.waystoneLocations
  {
    var loc := Get(st.locationQueue, id);
    var bld := Get(st.buildings, id);
    if bld.Some? then
      var claimName := Get(st.claimsWithWaystones, bld.value);
      if TruthyNumber(loc) && TruthyText(claimName) then
        st.waystoneLocations[id := Waystone(bld.value, loc.value)]
      else st.waystoneLocations
    else st.waystoneLocations
  }

  /** `resourceLocations` after the flush of `id` (the `if (loc && res)` block). */
  function ResourcesAfterFlush(st: State, id: EntityId): (r: map<int, map<EntityId, Int32>>)
    ensures RecordsResource(st, id) ==>
      var res := st.resourceQueue[id];
      && r.Keys == st.resourceLocations.Keys + {res}
      && Overwrites(Located(st.resourceLocations, res), r[res], id, st.locationQueue[id])
      && forall other :: other in st.resourceLocations && other != res ==>
           r[other] == st.resourceLocations[other]
    ensures !RecordsResource(st, id) ==> r == st.resourceLocations
  {
    var res := Get(st.resourceQueue, id);
    var loc := Get(st.locationQueue, id);
    if TruthyNumber(loc) && TruthyNumber(res) then
      var resLocs := Get(st.resourceLocations, res.value).GetOr(map[]);
      st.resourceLocations[res.value := resLocs[id := loc.value]]
    else st.resourceLocations
  }

  /**
   * The body of the callback `timeout` arms: record what the queues hold
   * for `id`, then drop `id` from every queue. The entity is deliberately
   * kept in `buildings`, so that a waystone that moves is found again.
   */
  function Flush(st: State, id: EntityId): (r: State)
    ensures Erases(st.resourceQueue, r.resourceQueue, id)
    ensures Erases(st.locationQueue, r.locationQueue, id)
    ensures r.timeoutQueue == st.timeoutQueue - {id}
    ensures r.waystoneLocations == WaystonesAfterFlush(st, id)
    ensures r.resourceLocations == ResourcesAfterFlush(st, id)
    ensures r == st.(waystoneLocations := r.waystoneLocations,
                     resourceLocations := r.resourceLocations,
                     resourceQueue := r.resourceQueue,
                     locationQueue := r.locationQueue,
                     timeoutQueue := r.timeoutQueue)
  {
    st.(waystoneLocations := WaystonesAfterFlush(st, id),
        resourceLocations := ResourcesAfterFlush(st, id),
        resourceQueue := st.resourceQueue - {id},
        locationQueue := st.locationQueue - {id},
        timeoutQueue := st.timeoutQueue - {id})
  }

  /** The earliest armed callback fires: it is no longer armed, and its flush runs. */
  function Fire(st: State): (r: State)
    requires |st.timers| > 0
    ensures r.timers == st.timers[1..]
    ensures r.timeoutQueue == st.timeoutQueue - {st.timers[0]}
    ensures r.waystoneLocations == WaystonesAfterFlush(st, st.timers[0])
    ensures r.resourceLocations == ResourcesAfterFlush(st, st.timers[0])
    ensures Erases(st.resourceQueue, r.resourceQueue, st.timers[0])
    ensures Erases(st.locationQueue, r.locationQueue, st.timers[0])
    ensures r == st.(waystoneLocations := r.waystoneLocations,
                     resourceLocations := r.resourceLocations,
                     resourceQueue := r.resourceQueue,
                     locationQueue := r.locationQueue,
                     timeoutQueue := r.timeoutQueue,
                     timers := r.timers)
    ensures Wf(st) ==> Wf(r)
  {
    var id := st.timers[0];
    var r := Flush(st.(timers := st.timers[1..]), id);
    assert Wf(st) ==> Wf(r) by {
      if Wf(st) {
        assert st.timers == [id] + st.timers[1..];
        assert multiset(st.timers) == multiset{id} + multiset(st.timers[1..]);
        assert forall x :: multiset(st.timers[1..])[x] == multiset(st.timers)[x] - if x == id then 1 else 0;
      }
    }
    r
  }

  /** Arming twice is arming once. */
  lemma ArmIdempotent(st: State, id: EntityId)
    ensures Arm(Arm(st, id), id) == Arm(st, id)
  {}

  /** A packed location of 0 is falsy, so the flush records nothing for it. */
  lemma ZeroLocationIsDropped(st: State, id: EntityId)
    requires id in st.locationQueue && st.locationQueue[id] == 0
    ensures Flush(st, id).waystoneLocations == st.waystoneLocations
    ensures Flush(st, id).resourceLocations == st.resourceLocations
  {}

  /** A resource type of 0 is falsy, so the flush records no resource for it. */
  lemma ZeroResourceIsDropped(st: State, id: EntityId)
    requires id in st.resourceQueue && st.resourceQueue[id] == 0
    ensures Flush(st, id).resourceLocations == st.resourceLocations
  {}

  /** Flushing an entity twice records nothing new the second time. */
  lemma FlushTwice(st: State, id: EntityId)
    ensures Flush(Flush(st, id), id) == Flush(st, id)
  {
    var once := Flush(st, id);
    assert !RecordsWaystone(once, id) && !RecordsResource(once, id);
    assert once.resourceQueue - {id} == once.resourceQueue;
    assert once.locationQueue - {id} == once.locationQueue;
  }
}

=== FILE: tracker.dfy ===
/**
 * The tracker's module-level state: the static description tables, the
 * maps kept up to date by row events, the two tracker outputs and the
 * queues that feed the delayed flush.
 */
module Tracker {
  import opened Wrappers
  import opened Packing

  /**
   * An entity id. Ids are unsigned 64-bit integers used as map keys through
   * their decimal text, which is injective and never empty
   * (`Decimal.ShowInjective`, `Decimal.Show`), so the id itself serves as key
   * and an id-valued entry is truthy exactly when it is present.
   */
  type EntityId = nat

  /** Claim of the Dragons Head settlement. */
  const DragonsHeadId: EntityId := 360287970202488740
  /** Claim of the Dragons Tail settlement. */
  const DragonsTailId: EntityId := 360287970204104859
  /** A craft is big when its total effort is strictly above this. */
  const BigCraftThreshold: int := 1
  /** Resource type of Traveler's Fruit. */
  const FruitResourceId: int := 182331452

  /** A `craftingRecipes` entry, the tuple `[station, tier, effort]`. */
  datatype Recipe = Recipe(station: string, tier: string, effort: int)

  /** A `waystoneLocations` entry, the pair `[claim id, packed location]`. */
  datatype Waystone = Waystone(claim: EntityId, location: Int32)

  /** A big-craft notification (`CraftInfo`). */
  datatype CraftInfo = CraftInfo(
    owner: string,
    empire: Option<string>,
    effort: int,
    tier: string,
    station: string,
    location: string)

  datatype State = State(
    /** building type id -> building name */
    buildingTypes: map<int, string>,
    /** recipe id -> station, tier text and actions required */
    craftingRecipes: map<int, Recipe>,
    /** building entity id -> claim entity id */
    buildings: map<EntityId, EntityId>,
    playerUsernames: map<EntityId, string>,
    /** empire entity id -> empire name */
    empires: map<EntityId, string>,
    /** player entity id -> empire entity id */
    empirePlayerData: map<EntityId, EntityId>,
    /** claim entity id -> claim name */
    claimsWithWaystones: map<EntityId, string>,
    /** waystone building id -> claim and packed location */
    waystoneLocations: map<EntityId, Waystone>,
    /** resource type id -> (resource entity id -> packed location) */
    resourceLocations: map<int, map<EntityId, Int32>>,
    /** resource entity id -> resource type id, waiting for its location */
    resourceQueue: map<EntityId, int>,
    /** entity id -> packed location, waiting for the flush */
    locationQueue: map<EntityId, Int32>,
    /** ids with an armed flush (the keys of `timeoutQueue`) */
    timeoutQueue: set<EntityId>,
    /** the armed flush callbacks in the order they fire; all share one delay */
    timers: seq<EntityId>)

  /** The state when the process starts: every map empty, nothing armed. */
  const Initial: State := State(map[], map[], map[], map[], map[], map[], map[], map[], map[], map[], map[], {}, [])

  /** Every pending id has exactly one armed flush, and no other id has one. */
  ghost predicate Wf(st: State) {
    forall id :: multiset(st.timers)[id] == if id in st.timeoutQueue then 1 else 0
  }

  lemma InitialIsWf()
    ensures Wf(Initial)
  {}

  /** JavaScript truthiness of a looked-up number: defined and not 0. */
  predicate TruthyNumber(o: Option<int>) {
    o.Some? && o.value != 0
  }

  /** JavaScript truthiness of a looked-up string: defined and not empty. */
  predicate TruthyText(o: Option<string>) {
    o.Some? && o.value != ""
  }
}

=== FILE: webhook.dfy ===
/**
 * `sendWebhookMessage`: which webhook(s) each kind of message is posted
 * to, and the JSON body built with `format` from the embed template. The
 * HTTP requests themselves are not modelled.
 */
module Webhook {
  import opened Wrappers
  import opened Tracker
  import Decimal
  import Template
  import Timeout

  /** The messages the tracker sends. */
  datatype Message =
    | Init
    | WsError
    | WsDisconnect
    | CodeError
    | Fruit
    | Craft(info: CraftInfo)

  /** The `targetChat` variable. */
  datatype TargetChat = AllChats | FruitChat | CraftChat

  /** The two webhooks, by the environment variable that holds their URL. */
  datatype Hook = BigCraftHook | FruitTrackerHook

  /** Status messages go to every chat, fruit reports to the fruit chat, crafts to the craft chat. */
  function Target(m: Message): (r: TargetChat)
    ensures r == AllChats <==> !m.Fruit? && !m.Craft?
    ensures r == FruitChat <==> m.Fruit?
    ensures r == CraftChat <==> m.Craft?
  {
    match m
    case Fruit => FruitChat
    case Craft(_) => CraftChat
    case _ => AllChats
  }

  /** The webhooks the message is posted to, in posting order. */
  function Hooks(m: Message): (r: seq<Hook>)
    ensures BigCraftHook in r <==> !m.Fruit?
    ensures FruitTrackerHook in r <==> !m.Craft?
    ensures 1 <= |r| <= 2
    ensures |r| == 2 ==> r == [BigCraftHook, FruitTrackerHook]
  {
    var chat := Target(m);
    (if chat == CraftChat || chat == AllChats then [BigCraftHook] else [])
    + (if chat == FruitChat || chat == AllChats then [FruitTrackerHook] else [])
  }

  /** A craft notification is posted to the big-craft webhook only. */
  lemma CraftGoesToCraftChat(info: CraftInfo)
    ensures Hooks(Craft(info)) == [BigCraftHook]
  {}

  /** What a fruit report says: no fruit left, or how many can be gathered. */
  datatype FruitSummary = AllCollected | Gatherable(count: nat)

  /**
   * The fruit report's case split: all collected when the fruit type has
   * no entry or an empty one. The other case always has an entry, so the
   * early return that follows it in the source never happens.
   */
  function Fruits(st: State): (r: FruitSummary)
    ensures r.AllCollected? <==> Timeout.Located(st.resourceLocations, FruitResourceId) == map[]
    ensures r.Gatherable? ==>
      FruitResourceId in st.resourceLocations && r.count == |st.resourceLocations[FruitResourceId]| && r.count > 0
  {
    var fruits := Get(st.resourceLocations, FruitResourceId);
    if fruits.None? || |fruits.value| == 0 then AllCollected
    else Gatherable(|fruits.value|)
  }

  /** Once a fruit's location is flushed, the fruit report is not "all collected". */
  lemma FlushedFruitIsGatherable(st: State, id: EntityId)
    requires Timeout.RecordsResource(st, id)
    requires st.resourceQueue[id] == FruitResourceId
    ensures Fruits(Timeout.Flush(st, id)).Gatherable?
  {
    var r := Timeout.Flush(st, id).resourceLocations;
    assert id in r[FruitResourceId];
  }

  const ColorRed: int := 8388608
  const ColorGreen: int := 32768
  const ColorYellow: int := 8421376

  /** The fields substituted into the embed template. */
  datatype Embed = Embed(title: string, description: string, url: string, color: int)

  /** The embed of a status message. */
  function StatusEmbed(m: Message): (e: Embed)
    requires !m.Fruit? && !m.Craft?
    ensures e.color == (if m.Init? then ColorGreen else ColorRed)
    ensures e.url == ""
  {
    match m
    case Init => Embed("Service is back online!", "", "", ColorGreen)
    case WsError => Embed("Websocket Exception!", "Service offline!\\nRestarting in 10 minutes...", "", ColorRed)
    case WsDisconnect => Embed("Websocket Disconnected!", "Service offline!\\nRestarting in 10 minutes...", "", ColorRed)
    case CodeError => Embed("Code Exception!", "Service offline!\\nRestarting in 10 minutes...", "", ColorRed)
  }

  /** The embed of a fruit report when no fruit is left. */
  const AllCollectedEmbed: Embed :=
    Embed("Traveler's Fruits", "**All fruits have been collected.**", "", ColorYellow)

  /*
   * The JSON body template of every message, spelled as its literal text
   * between the four placeholders `{title}`, `{description}`, `{url}` and
   * `{color}`; the literal text before `{title}` is cut at its two braces.
   */
  const HeadFirst: string := "\"content\": null,\"embeds\": ["
  const HeadSecond: string := "\"title\": \""
  const Head: string := "{" + (HeadFirst + ("{" + HeadSecond))
  const AfterTitle: string := "\",\"description\": \""
  const AfterDescription: string := "\",\"url\": \""
  const AfterUrl: string := "\",\"color\": "
  const Tail: string := "}],\"attachments\": []}"

  /** The template from the text after the url field on. */
  const ColorTail: string := AfterUrl + (Template.Placeholder("color") + Tail)
  /** The template from the text after the description field on. */
  const UrlTail: string := AfterDescription + (Template.Placeholder("url") + ColorTail)
  /** The template from the text after the title field on. */
  const DescriptionTail: string := AfterTitle + (Template.Placeholder("description") + UrlTail)

  const WebhookMessage: string := Head + (Template.Placeholder("title") + DescriptionTail)

  /** The values `format` receives; the color number becomes its decimal text. */
  function Values(e: Embed): map<string, string> {
    map["title" := e.title, "description" := e.description, "url" := e.url, "color" := Decimal.Show(e.color)]
  }

  /**
   * The body posted for an embed: the template with the four fields spliced
   * in verbatim, so text in a field that looks like a placeholder is not
   * expanded again.
   */
  function Content(e: Embed): (r: string)
    ensures r == Head + (e.title + (AfterTitle + (e.description + (AfterDescription
                 + (e.url + (AfterUrl + (Decimal.Show(e.color) + Tail)))))))
  {
    ContentSplices(e);
    Template.Format(WebhookMessage, Values(e))
  }

  /** The colour of the "all collected" report, as written into its body. */
  lemma YellowText()
    ensures Decimal.Show(ColorYellow) == "8421376"
  {
    assert Decimal.ShowNat(8) == "8";
    assert Decimal.ShowNat(84) == "84";
    assert Decimal.ShowNat(842) == "842";
    assert Decimal.ShowNat(8421) == "8421";
    assert Decimal.ShowNat(84213) == "84213";
    assert Decimal.ShowNat(842137) == "842137";
    assert Decimal.ShowNat(8421376) == "8421376";
  }

  /**
   * The body of the fruit report when no fruit is left: the yellow
   * "all collected" embed. The gatherable report is not modelled.
   */
  function AllCollectedReport(st: State): (r: Option<string>)
    ensures r.Some? <==> Fruits(st).AllCollected?
    ensures r.Some? ==> r.value == Head + ("Traveler's Fruits" + (AfterTitle + ("**All fruits have been collected.**"
                          + (AfterDescription + (AfterUrl + ("8421376" + Tail))))))
  {
    if Fruits(st).AllCollected? then
      var e := AllCollectedEmbed;
      YellowText();
      assert e.title == "Traveler's Fruits" && e.description == "**All fruits have been collected.**";
      assert e.url == "" && Decimal.Show(e.color) == "8421376";
      var c := Content(e);
      assert c == Head + ("Traveler's Fruits" + (AfterTitle + ("**All fruits have been collected.**"
                  + (AfterDescription + ("" + (AfterUrl + ("8421376" + Tail)))))));
      assert "" + (AfterUrl + ("8421376" + Tail)) == AfterUrl + ("8421376" + Tail);
      Some(c)
    else None
  }

  /** The owner line of a craft description (`\\n` is a backslash and an `n`, escaped for JSON). */
  function OwnerLine(info: CraftInfo): string {
    "**Owner:** `" + info.owner + "`\\n"
  }

  function EmpireLine(empire: string): string {
    "**Empire:** `" + empire + "`\\n"
  }

  /** The effort, tier, station and location lines; `effortText` is the effort formatted for the en-US locale. */
  function DetailLines(info: CraftInfo, effortText: string): string {
    "**Effort:** `" + effortText + "` (Tier " + info.tier + ")\\n**Station:** `" + info.station
    + "`\\n**Location:** `" + info.location + "`"
  }

  /**
   * The description of a craft notification: the owner line first and the
   * detail lines last, with the empire line between them when the empire
   * is truthy.
   */
  function CraftDescription(info: CraftInfo, effortText: string): (r: string)
    ensures OwnerLine(info) <= r
    ensures |r| >= |DetailLines(info, effortText)|
    ensures r[|r| - |DetailLines(info, effortText)|..] == DetailLines(info, effortText)
    ensures |r| == |OwnerLine(info)| + |DetailLines(info, effortText)|
                   + (if TruthyText(info.empire) then |EmpireLine(info.empire.value)| else 0)
  {
    if TruthyText(info.empire) then OwnerLine(info) + EmpireLine(info.empire.value) + DetailLines(info, effortText)
    else OwnerLine(info) + DetailLines(info, effortText)
  }

  /**
   * The two shapes of description differ by the empire line only: a
   * description mentions an empire exactly when the empire is known and
   * non-empty, and is otherwise the description without one.
   */
  lemma EmpireLineWhenKnown(info: CraftInfo, effortText: string)
    ensures var without := CraftDescription(info.(empire := None), effortText);
      && (TruthyText(info.empire) <==> |CraftDescription(info, effortText)| > |without|)
      && (!TruthyText(info.empire) ==> CraftDescription(info, effortText) == without)
      && (TruthyText(info.empire) ==>
            CraftDescription(info, effortText)
            == OwnerLine(info) + EmpireLine(info.empire.value) + without[|OwnerLine(info)|..])
  {
    var without := CraftDescription(info.(empire := None), effortText);
    assert OwnerLine(info.(empire := None)) == OwnerLine(info);
    assert DetailLines(info.(empire := None), effortText) == DetailLines(info, effortText);
    assert without[|OwnerLine(info)|..] == DetailLines(info, effortText);
  }

  /** The embed of a craft notification. */
  function CraftEmbed(info: CraftInfo, effortText: string): (e: Embed)
    ensures e.color == ColorGreen && e.url == ""
  {
    Embed("Big Craft started!", CraftDescription(info, effortText), "", ColorGreen)
  }

  /** In the template's literal text every `{` is followed by a non-word character. */
  lemma TextIsInert()
    ensures Template.Inert(Head) && Template.Inert(AfterTitle) && Template.Inert(AfterDescription)
    ensures Template.Inert(AfterUrl) && Template.Inert(Tail)
  {
    assert '{' !in HeadFirst && '{' !in HeadSecond;
    assert '{' !in AfterTitle && '{' !in AfterDescription && '{' !in AfterUrl && '{' !in Tail;
    Template.NoBraceIsInert(HeadFirst);
    Template.NoBraceIsInert(HeadSecond);
    Template.NoBraceIsInert(AfterTitle);
    Template.NoBraceIsInert(AfterDescription);
    Template.NoBraceIsInert(AfterUrl);
    Template.NoBraceIsInert(Tail);
    assert HeadFirst[0] == '"' && HeadSecond[0] == '"';
    Template.BraceThenInert(HeadSecond);
    Template.InertAppend(HeadFirst, "{" + HeadSecond);
    Template.BraceThenInert(HeadFirst + ("{" + HeadSecond));
  }

  /** The four field names are placeholder keys, and `Values` maps each to its field. */
  lemma ValuesAt(e: Embed)
    ensures Template.IsKey("title") && "title" in Values(e) && Values(e)["title"] == e.title
    ensures Template.IsKey("description") && "description" in Values(e) && Values(e)["description"] == e.description
    ensures Template.IsKey("url") && "url" in Values(e) && Values(e)["url"] == e.url
    ensures Template.IsKey("color") && "color" in Values(e) && Values(e)["color"] == Decimal.Show(e.color)
  {}

  lemma SpliceColor(e: Embed)
    ensures Template.Format(ColorTail, Values(e)) == AfterUrl + (Decimal.Show(e.color) + Tail)
  {
    TextIsInert();
    ValuesAt(e);
    assert Template.Format(Tail, Values(e)) == Tail by {
      Template.FormatInert(Tail, "", Values(e));
      assert Tail + "" == Tail;
    }
    Template.FormatTextThenHole(AfterUrl, "color", Tail, Values(e));
  }

  lemma SpliceUrl(e: Embed)
    ensures Template.Format(UrlTail, Values(e))
         == AfterDescription + (e.url + (AfterUrl + (Decimal.Show(e.color) + Tail)))
  {
    TextIsInert();
    ValuesAt(e);
    SpliceColor(e);
    Template.FormatTextThenHole(AfterDescription, "url", ColorTail, Values(e));
  }

  lemma SpliceDescription(e: Embed)
    ensures Template.Format(DescriptionTail, Values(e))
         == AfterTitle + (e.description + (AfterDescription + (e.url + (AfterUrl + (Decimal.Show(e.color) + Tail)))))
  {
    TextIsInert();
    ValuesAt(e);
    SpliceUrl(e);
    Template.FormatTextThenHole(AfterTitle, "description", UrlTail, Values(e));
  }

  /** Formatting the template with an embed's values splices each field in once. */
  lemma ContentSplices(e: Embed)
    ensures Template.Format(WebhookMessage, Values(e)) == Head + (e.title + (AfterTitle + (e.description + (AfterDescription
                          + (e.url + (AfterUrl + (Decimal.Show(e.color) + Tail)))))))
  {
    TextIsInert();
    ValuesAt(e);
    SpliceDescription(e);
    Template.FormatTextThenHole(Head, "title", DescriptionTail, Values(e));
  }
}

=== FILE: wrappers.dfy ===
/** Optional values, standing in for JavaScript's `undefined`. */
module Wrappers {

  datatype Option<+T> = None | Some(value: T) {

    /** The value, or `default` when there is none (`x ?? default`). */
    function GetOr(default: T): T {
      match this
      case Some(v) => v
      case None => default
    }
  }

  /** A value or an error, standing in for a call that may throw. */
  datatype Result<+R, +E> = Success(value: R) | Failure(error: E)

  /** `m.get(k)`: the entry for `k`, or `None` when the key is absent. */
  function Get<K, V>(m: map<K, V>, k: K): (r: Option<V>)
    ensures r.Some? <==> k in m
    ensures r.Some? ==> r.value == m[k]
  {
    if k in m then Some(m[k]) else None
  }
}
